=== FILE: README.md ===
# Chat-room multiplexer, modelled in Dafny

This project models the in-process core of the c0nnect chat server: many
chat rooms ("chat servers", one `WebSocketServer` each) share one HTTP
listener.

- **Registry.** `ChatServerController` hands out sequential room ids from a counter `_i`. It keeps a map from id to room.
- **Restore.** When a MongoClient is attached, the controller rebuilds rooms from the databases that already exist.
- **Routing.** It routes every WebSocket upgrade to a room. The room id is `parseInt` of a path segment.
- **Sessions.** Each room runs a join / message / close state machine:
  - it checks that usernames are unique against the room's `active_users` collection;
  - it persists messages and relays them;
  - it announces when users join and leave.
- **Factory.** `ChatServerFactory` is a simpler registry. It routes on the last path segment.

Every event handler is one atomic, pure transition. It takes a state (counter, maps, the socket-to-username binding, the room's database) and returns a new state plus the frames it sends, in order.

| file | module | what it holds |
|---|---|---|
| base.dfy | `Base` | `Option`, standing for `undefined` |
| js_number.dfy | `JsNumber` | `Number.parseInt` (whitespace, sign, `0x`, digit prefix, NaN) and `${n}` for integers |
| paths.dfy | `Paths` | `split("/")`, `reverse()`, reading a segment counted from the end |
| wire.dfy | `Wire` | sockets, parsed payloads, message records, the outbound frames |
| store.dfy | `Store` | one room's database: owner records, the active-user multiset, the message log, and the history sort |
| session.dfy | `Session` | the per-room join / message / close handlers, and the room invariant they keep |
| routing.dfy | `Routing` | the shared upgrade routing: segment → `parseInt` → destroy or deliver |
| controller.dfy | `ChatServerController` | the registry, `createChatServer`, `doesChatServerExist`, upgrade routing, event lifting, `setMongoClient` |
| factory.dfy | `ChatServerFactory` | the factory's registry and routing |

The outside world enters as parameters:

- **Pathnames.** The upgrade path is given as a string, already normalised by `new URL`.
- **Sockets.** A socket is a number that names it.
- **Time.** `Date.now()` is a parameter `now`.
- **Database listing and owner reads.** The names that `listDatabases` returns are a parameter. So is the owner that each metainfo `findOne` returns.
- **Inbound frames.** An inbound frame arrives already parsed (`Incoming`). `Unparseable` stands for every throw inside the message handler's `try`.

## Model

| member | source | states |
|---|---|---|
| JsNumber.ParseInt | server/src/ChatServerController.ts:37 | a string with no decimal digit parses to NaN; a string that starts with a digit (and is not `0x…`) parses to a non-negative integer |
| JsNumber.DecimalRoundTrip | server/src/ChatServerController.ts:99 | `parseInt` of the database name `${id}` gives back `id`, for every integer id |
| JsNumber.ParseDecimalPrefix | server/src/ChatServerController.ts:77 | `parseInt` of `${n}` followed by text that starts with no digit and no `x` is `n` (so a database named `7abc` restores as room 7) |
| JsNumber.DecimalInjective | server/src/ChatServerController.ts:99 | two rooms get the same database name only when they have the same id |
| Paths.Split | server/src/ChatServerController.ts:36 | the pieces of `split("/")` contain no `/`, there is at least one, and joining them with `/` gives back the pathname |
| Paths.SplitJoin | server/src/ChatServerController.ts:36 | splitting undoes joining when no piece holds a `/` |
| Paths.SplitConcat | server/src/ChatServerController.ts:36 | the pieces of `a/b` are the pieces of `a` followed by the pieces of `b` |
| Paths.SegmentFromEnd | server/src/ChatServerController.ts:36-37 | `pathname.split("/").reverse()[k]` exists exactly when the path has more than k segments, holds no `/`, and is the k-th segment counted from the end; index 0 always exists |
| Paths.SegmentsOfRoomPath | server/src/ChatServerController.ts:109-110 | in `prefix/room/user`, reversed index 0 is `user` and reversed index 1 is `room` |
| Store.SortByTime | server/src/ChatServerController.ts:127 | the history is in ascending `utc_timestamp` order and holds exactly the records of the log (a permutation) |
| Store.SortSortedIsIdentity | server/src/ChatServerController.ts:127 | a log already in time order comes back unchanged |
| Session.Fanout | server/src/ChatServerController.ts:144-149 | every OPEN client gets exactly one frame, the one chosen for it; clients that are not OPEN get nothing |
| Session.CloseClient | server/src/ChatServerController.ts:118 | `webSocket.close()` leaves every client in place with its socket, the closed socket is no longer OPEN, and every other socket's OPEN status is unchanged |
| Session.RemoveClient | server/src/ChatServerController.ts:153-161 | the library's removal of the closing socket before the close listener runs: the clients' sockets lose exactly that socket, distinct sockets stay distinct, and every other socket's OPEN status is unchanged |
| Session.Join | server/src/ChatServerController.ts:106-149 | taken name: `UsernameTaken` only if the socket is OPEN, then the socket is closed; no record, no binding, nothing to others. Free name: one active-user record added, socket bound to the last path segment, the joiner alone gets the ack with the time-sorted full history and a roster containing it, and every other OPEN client gets only the join notice |
| Session.OnMessage | server/src/ChatServerController.ts:164-188 | unparseable: nothing changes and nothing is sent. Username differing from the binding: `Impersonation` to the sender and a close, log untouched, nothing relayed. Otherwise exactly one record (bound name, payload `message`, `now`) appended, and the payload relayed once to every OPEN client, the sender included |
| Session.OnClose | server/src/ChatServerController.ts:153-162 | one active-user record of the bound name (or `someone`) is removed, only this socket's binding is removed, and every client still OPEN gets one `left.` notice with that name |
| Session.JoinKeepsConsistent | server/src/ChatServerController.ts:113-124 | with check and insert as one step, a join keeps each username to at most one active record, and no two members share a bound name |
| Session.OnMessageKeepsConsistent | server/src/ChatServerController.ts:164-188 | the message handler keeps the room invariant |
| Session.OnCloseKeepsConsistent | server/src/ChatServerController.ts:153-162 | closing a bound member's socket keeps the room invariant: no other member loses its record |
| Session.AddClientKeepsConsistent | server/src/ChatServerController.ts:49-50 | adding a fresh, unbound socket to a room's clients keeps the room invariant |
| Session.RemoveClientKeepsConsistent | server/src/ChatServerController.ts:116-119 | the library dropping a socket from `clients` (all that happens when a turned-down socket closes) keeps the room invariant |
| Routing.RoomIdAtSegment | server/src/ChatServerController.ts:37 | the id read at reversed index k is `parseInt` of the k-th segment from the end, and NaN when the path is too short for that index (`parseInt(undefined)`) |
| Routing.UndefinedIsNaN | server/src/ChatServerController.ts:37 | `parseInt` of the text `undefined`, which is what a missing segment becomes, is NaN |
| Routing.RouteAt | server/src/ChatServerController.ts:36-44 | the socket is destroyed exactly when the segment parses to NaN or to an unregistered id; otherwise delivery goes to the id parsed |
| Routing.RoomIdOfRoomPath | server/src/ChatServerController.ts:36-37 | for `prefix/${id}/user`, the id read at reversed index 1 is `id` |
| Routing.RoomIdOfShortPath | server/src/ChatServerFactory.ts:25 | for `prefix/${id}`, the id read at reversed index 0 is `id` |
| ChatServerController.CreateChatServer | server/src/ChatServerController.ts:91-105 | no HTTP server: `-1` and nothing changes. Otherwise: id = `_i`+1, `_i` grows by exactly one, exactly that id is added with a room that has no clients, other rooms and bindings are unchanged, and, when a MongoClient is attached, the room is bound to database `${id}`, whose owner set becomes exactly the old one plus the owner while its active users and messages are kept; no other database changes |
| ChatServerController.CreateManySequential | server/src/ChatServerController.ts:95-96 | n successive creations return `_i`+1 … `_i`+n in order and register exactly those ids in addition to the old ones |
| ChatServerController.SequentialIdsFromFresh | server/src/ChatServerController.ts:194-197 | from a fresh controller with an HTTP server, the ids returned are 1, 2, 3, …, and `doesChatServerExist` holds for exactly those ids |
| ChatServerController.CreatedServersExist | server/src/ChatServerController.ts:194-197 | after any run of creations, `doesChatServerExist` holds exactly for the ids that existed before and, with an HTTP server, the ids handed out; without one every call returns `-1` and nothing new exists |
| ChatServerController.RouteUpgrade | server/src/ChatServerController.ts:33-44 | the room id is `parseInt` of the second-to-last segment; NaN or no such room destroys the socket; delivery only ever goes to a registered room |
| ChatServerController.RouteOfRoomPath | server/src/ChatServerController.ts:35-48 | an upgrade to `prefix/${id}/user` is delivered to room `id` when it exists and destroyed otherwise |
| ChatServerController.JoinRoom | server/src/ChatServerController.ts:48-51 | a socket delivered to a room joins exactly that room's clients; the room's clients, the bindings and the room's database become exactly what its join handler leaves, the frames are the join's, and nothing outside the room (counter, other rooms, other databases) changes |
| ChatServerController.Upgrade | server/src/ChatServerController.ts:33-51 | a destroyed upgrade changes nothing and sends nothing; a delivered one is the join of the room registered under the parsed id, with the effects stated for `JoinRoom` |
| ChatServerController.JoinRoomListensIffAccepted | server/src/ChatServerController.ts:113-151 | a fresh socket delivered to a room carries the room's `message` and `close` listeners afterwards exactly when its name was not taken, because a taken name returns at line 119 before they are installed |
| ChatServerController.OnRoomMessage | server/src/ChatServerController.ts:164-188 | a socket without the room's listener (never joined, or turned down at lines 116-119) changes nothing and sends nothing; otherwise the room's clients, the bindings and the room's database become exactly what the message handler leaves and its frames are sent; nothing outside the room changes |
| ChatServerController.OnRoomClose | server/src/ChatServerController.ts:116-162 | the socket always leaves the room's clients; without the room's listener nothing is sent and the bindings and databases are untouched; with it, only that socket's binding is removed, the room's clients and database become exactly what the close handler leaves, and its frames are sent; nothing outside the room changes |
| ChatServerController.JoinRoomKeepsConsistent | server/src/ChatServerController.ts:113-124 | delivering a fresh, unbound socket to a room and running its join keeps the room invariant of the controller's state |
| ChatServerController.OnRoomMessageKeepsConsistent | server/src/ChatServerController.ts:164-188 | a message event keeps the room invariant of the controller's state |
| ChatServerController.OnRoomCloseKeepsConsistent | server/src/ChatServerController.ts:153-162 | a close event, with or without the room's listener, keeps the room invariant of the controller's state |
| ChatServerController.TurnedDownJoinIsSilent | server/src/ChatServerController.ts:116-119 | a join turned down for a taken name followed by that socket's close sends frames only to the joiner, and leaves the bindings and every database as they began |
| ChatServerController.JoinRoomKeepsOtherRoomConsistent | server/src/ChatServerController.ts:113-124 | a join in one room keeps every other room on another database consistent, provided the joining socket is not one of that room's clients: it binds only that socket and writes only its own database |
| ChatServerController.OnRoomMessageKeepsOtherRoomConsistent | server/src/ChatServerController.ts:164-188 | a message event in one room keeps every other room on another database consistent |
| ChatServerController.OnRoomCloseKeepsOtherRoomConsistent | server/src/ChatServerController.ts:153-162 | a close event in one room keeps every other room on another database consistent: it at most unbinds the closing socket |
| ChatServerController.DistinctRoomsDistinctDatabases | server/src/ChatServerController.ts:99 | when every room reads no database or `${id}`, two different rooms never read the same database |
| ChatServerController.JoinRoomKeepsControllerConsistent | server/src/ChatServerController.ts:48-124 | a new socket (in no room, bound to no name) joining any room keeps every room consistent, keeps each socket in at most one room, and keeps each room on its own database |
| ChatServerController.UpgradeKeepsControllerConsistent | server/src/ChatServerController.ts:33-51 | an upgrade with a new socket keeps the controller-wide invariant whether it is destroyed or delivered |
| ChatServerController.OnRoomMessageKeepsControllerConsistent | server/src/ChatServerController.ts:164-188 | any message event keeps the controller-wide invariant |
| ChatServerController.OnRoomCloseKeepsControllerConsistent | server/src/ChatServerController.ts:153-162 | any close event, with or without the room's listener, keeps the controller-wide invariant |
| ChatServerController.CreateChatServerKeepsControllerConsistent | server/src/ChatServerController.ts:91-105 | creating a room keeps the controller-wide invariant when the database it will read has at most one active-user record per name |
| ChatServerController.UserDatabases | server/src/ChatServerController.ts:61-63 | a listed name is considered exactly when it is not `admin`, `config` or `local` |
| ChatServerController.RestoreNamespace | server/src/ChatServerController.ts:76-105 | a name whose `parseInt` is NaN changes nothing; any other name registers a fresh room with no clients under exactly `parseInt(name)`, leaves `_i` at that id, and leaves the other rooms and the socket bindings alone; with a MongoClient the room reads database `${parseInt(name)}`, whose owner set gains the owner the metainfo read returned, and every other database is untouched; without one the room has no database and nothing is written |
| ChatServerController.RestoredIdsMembers | server/src/ChatServerController.ts:76-87 | an id is registered by the restore exactly when some database's name parses to it |
| ChatServerController.RestoredIdsOfPermutation | server/src/ChatServerController.ts:76-87 | which ids are restored does not depend on the order in which the callbacks resolve |
| ChatServerController.RestoredIdsOfListing | server/src/ChatServerController.ts:61-82 | restoring a listing registers exactly the ids that some listed name other than `admin`, `config`, `local` parses to |
| ChatServerController.LastRestoredIdIsLast | server/src/ChatServerController.ts:84 | the counter the callbacks leave is the id of the last one to run whose name parses, or its starting value when none parses |
| ChatServerController.RestoreSteps | server/src/ChatServerController.ts:76-87 | running the callbacks in resolution order registers exactly the parsed ids in addition to the existing ids, each holding a room with no clients (replacing any earlier room under that id); every other room and every socket binding is unchanged, and `_i` is left at the id of the last one to run whose name parses (its old value when none parses) |
| ChatServerController.RestoreStepsStore | server/src/ChatServerController.ts:76-105 | with a MongoClient, every restored room reads database `${id}`, every database not named by a restored id is untouched, and no database loses or gains active users or messages (only owner records are added); without one, nothing is written and no restored room has a database |
| ChatServerController.RestoreAsWritten | server/src/ChatServerController.ts:75-88 | as written, the counter ends at the id of the last callback to resolve whose name parses, or 0 when none parses, not at the maximum; restored ids hold rooms with no clients reading their own databases, other rooms, other databases and the bindings are unchanged, and only owner records are written |
| ChatServerController.RestoreAll | server/src/ChatServerController.ts:75-88 | the intended restore: the same rooms and the same writes as the as-written one (restored ids hold rooms with no clients reading their own databases, other rooms, other databases and the bindings are unchanged), and a counter no smaller than any restored id |
| ChatServerController.NextCreateAfterRestoreIsFresh | server/src/ChatServerController.ts:88 | after the intended restore, the next room's id is larger than every restored id |
| ChatServerController.RestoreAsWrittenReusesId | server/src/ChatServerController.ts:83-88 | as written, for any ids b < a whose reads resolve a then b, the counter ends at b, room a exists, and the (a - b)-th room created afterwards gets id a again |
| ChatServerController.RestoreTenThenSeven | server/src/ChatServerController.ts:83-88 | databases `10` then `7`: the counter ends at 7, room 10 exists, and the third room created afterwards gets id 10 |
| ChatServerController.DropListed | server/src/ChatServerController.ts:66-71 | every listed database other than `admin`, `config`, `local` is gone, every other database is kept as it was, no database appears, and rooms, counter and bindings are unchanged |
| ChatServerController.SetMongoClient | server/src/ChatServerController.ts:56-89 | given the order in which the restore callbacks resolve (any reordering of the non-reserved listed databases): no HTTP server or restore off means every listed non-reserved database is dropped, reserved or unlisted ones are kept and no database appears, with rooms and counter unchanged. Otherwise the rooms gain exactly the parsed ids, each holding a room with no clients that reads database `${id}`, every other room is unchanged, databases not named by a restored id are untouched, no database loses or gains active users or messages, and the counter is the id of the last callback to resolve whose name parses, or 0. The socket bindings never change |
| ChatServerController.RestoredRoomServesItsDatabase | server/src/ChatServerController.ts:55-101 | after `setMongoClient` with restore on, every restored room reads database `${id}` with the messages and active users it held before, which is what "restore their state" promises |
| ChatServerController.SetMongoClientLastWins | server/src/ChatServerController.ts:75-88 | rooms `x` and `y` persisted as databases `${x}` and `${y}`, with reads resolving in listing order, both come back and leave `_i` at `y`, even when `x` is larger |
| ChatServerController.SetMongoClientIntended | server/src/ChatServerController.ts:75-88 | the intended `setMongoClient`: the same drops, the same rooms and the same writes (restored ids with no clients reading their own databases, other rooms and databases unchanged), the bindings unchanged, and a counter no smaller than any restored id |
| ChatServerFactory.CreateChatServer | server/src/ChatServerFactory.ts:43-59 | no HTTP server: `-1` and nothing changes. Otherwise: id = `_i`+1, `_i` grows by one, and the new server is stored under that same id with the others untouched |
| ChatServerFactory.SequentialIds | server/src/ChatServerFactory.ts:47-58 | from a fresh factory, the ids are 1, 2, 3, …, each registered under itself, and no other id is registered |
| ChatServerFactory.RouteUpgrade | server/src/ChatServerFactory.ts:21-40 | the id is `parseInt` of the last segment; NaN or an unregistered id destroys the socket; otherwise the socket goes to the server stored under that id |
| ChatServerFactory.RouteOfRoomPath | server/src/ChatServerFactory.ts:24-39 | an upgrade to `prefix/${id}` reaches the server created for `id`, or is destroyed when there is none |

## Notes on the code

- **Relay.** The message relay is `JSON.stringify(receivedData)`, a re-serialisation of the parsed payload. It is not the received text verbatim.
- **Restore and the counter.** Line 88's comment says the line restores the old server id for sequential ordering. It does not: see Findings.
- **Restore writes.** Restore goes through `createChatServer` (line 86), which upserts an owner record (line 101) into database `${id}`. This is not always a no-op:
  - when the metainfo read (line 83) finds no owner, a record with no username is upserted;
  - for a name such as `007`, the record goes into database `7`, not `007`.
- **Restore and names.** A database name restores as room `parseInt(name)`, whose database is `${parseInt(name)}`. So `7abc` and `007` both become room 7, bound to database `7`. The history and roster of `7abc` or `007` are not the room's. A room created under an id whose database already exists inherits that database's history and active users.
- **Restore over existing rooms.** A restored id that matches a room created before `setMongoClient` ran replaces that room with a new one with no clients (line 105 overwrites the map entry).
- **Controller invariant.** The bindings map is shared by all rooms, so a room's invariant can be broken by events elsewhere. `ControllerConsistent` asks that every room be consistent, that each socket sit in at most one room's clients (each upgrade brings a new `WebSocket`, line 49), and that each room read no database or `${id}` (line 99). The last part keeps two rooms off one database.
- **Close.** The close handler reaches "every remaining client" because the `ws` library removes the closing socket from `clients` before the room's own close listener runs. The model does this removal first.
- **Turned-down joins.** A join turned down for a taken name returns at line 119 before the `message` and `close` listeners are installed (lines 151-188). Its close only drops it from `clients`, and any frame it sends is ignored. The model marks the sockets that carry the listeners as those bound to a username (line 124), because the close listener is what unbinds them (line 158).

## Findings

| source | as written | input that shows it | evidently intended | confidence | as-written member | corrected member |
|---|---|---|---|---|---|---|
| server/src/ChatServerController.ts:88 | `_i = maxServerId` runs before any restore callback gets past its first `await` (line 83), so it stores 0. Each callback then sets `_i` to its own id, and the last one to resolve decides the counter | databases `10` and `7` whose metainfo reads resolve in that order: `_i` ends at 7, and the third room created afterwards gets id 10, replacing restored room 10 (`RestoreTenThenSeven`) | `_i` is the largest restored id once every callback has run | medium; not executed (depends on promise resolution order) | ChatServerController.RestoreAsWrittenReusesId | ChatServerController.RestoreAll |

`ChatServerController.SetMongoClient` models the code as written, and `ChatServerController.SetMongoClientLastWins` shows the same counter through it. `ChatServerController.SetMongoClientIntended` uses the corrected `RestoreAll`.

## Left out

- Interleaving at `await` points: each handler is one atomic step. This leaves out the check-then-insert race on usernames, in which two overlapping joins of one name both pass the `findOne` (lines 114-123). Under the atomic model, `Session.JoinKeepsConsistent` shows that uniqueness holds.
- Persistence failures: the model's store never fails or throws. Lines 83, 101, 114-130, 157 and 177 are assumed to succeed.
- The MongoDB driver wrapper `MongoInterface.ts` and the Express bootstrap `index.ts`: these are I/O and configuration, with no chat logic.
- `new URL(...)` normalisation and percent-encoding (the pathname comes back percent-encoded, so a username such as `J%C3%B6rg` reaches line 110 still encoded), and the WebSocket handshake (`handleUpgrade`): the model starts from the pathname.
- The order in which the restore callbacks finish: it is a parameter of `SetMongoClient` (any reordering of the databases it lists) and of `RestoreAsWritten`.
- `dropDatabase`: the drop is modelled as removing the name from the store map.
- Restore and the controller-wide invariant: `setMongoClient` is not proved to keep `ControllerConsistent`, because a restored room reads a database whose active users come from earlier runs and may repeat a name.
- Events on a socket whose room was later replaced in the registry: a restore can replace a room by registering a second database under the same id. The controller addresses rooms by id, so such sockets cannot be reached.
- Logging, `console` calls, and the `error` listeners: these have no effect on state.
- JsNumber.ParseInt: results are exact integers. JavaScript rounds values beyond 2^53 to the nearest double, and `${n}` switches to exponent notation from 10^21. Ids that large are not modelled.
- Session.OnMessage: a payload carries only its `username` and `message` properties. Other properties would be relayed too, but they are not modelled. JSON text is not modelled at all.
- Session.Join: the roster in the ack is the multiset of usernames in `active_users`. The records' `_id` fields and the driver's array order are not modelled.
- Store.SortByTime: records with equal timestamps are kept in log order. MongoDB does not promise an order for ties.

=== FILE: base.dfy ===
/** Small shared vocabulary: an optional value, used for JavaScript's `undefined`. */
module Base {

  /** `None` plays the part of JavaScript's `undefined`. */
  datatype Option<+T> = None | Some(value: T)
}

=== FILE: controller.dfy ===
/**
 * ChatServerController: the room registry (sequential ids, the id-to-room
 * map, restore from persisted databases), the `upgrade` routing that picks a
 * room by the second-to-last path segment, and the lifting of each room's
 * session handlers onto the controller's shared state.
 */
module ChatServerController {
  import opened Base
  import opened JsNumber
  import opened Wire
  import opened Store
  import opened Session
  import opened Routing

  /** One registered WebSocketServer: its clients, and the database name its handlers captured (`db?.`). */
  datatype ChatServer = ChatServer(clients: seq<Client>, dbName: Option<string>)

  /**
   * The controller's fields, plus the databases its MongoClient reaches:
   * `_httpServer` and `_mongoClient` as attached flags, the counter `_i`,
   * `_serverIdToChatServerMap`, and `_websocketToClientUsername`.
   */
  datatype Controller = Controller(
    httpAttached: bool,
    mongoAttached: bool,
    counter: int,
    rooms: map<int, ChatServer>,
    bound: map<Socket, string>,
    store: map<string, Namespace>)

  /** A freshly constructed controller. */
  const Initial := Controller(false, false, 0, map[], map[], map[])

  /** `set httpServer`: from now on rooms can be created and upgrades are routed. */
  function AttachHttpServer(c: Controller): Controller
  {
    c.(httpAttached := true)
  }

  /** `{serverId}` and the controller after the call. */
  datatype Created = Created(state: Controller, serverId: int)

  /**
   * `createChatServer(ownerUsername)`. Without an HTTP server: `-1` and no
   * change. Otherwise the id is `_i + 1`, `_i` advances by one, the owner
   * record is upserted into the database named by the id (when a MongoClient
   * is attached), and a new empty room is stored under the id.
   */
  function CreateChatServer(c: Controller, owner: Owner): (r: Created)
    ensures !c.httpAttached ==> r == Created(c, -1)
    ensures c.httpAttached ==>
      && r.serverId == c.counter + 1
      && r.state.counter == c.counter + 1
      && r.state.httpAttached && r.state.mongoAttached == c.mongoAttached
      && r.state.rooms.Keys == c.rooms.Keys + {r.serverId}
      && r.state.rooms[r.serverId].clients == []
      && (forall id :: id in c.rooms && id != r.serverId ==> r.state.rooms[id] == c.rooms[id])
      && r.state.bound == c.bound
      && (c.mongoAttached ==>
            var before := NamespaceAt(c.store, Decimal(r.serverId));
            && r.state.rooms[r.serverId].dbName == Some(Decimal(r.serverId))
            && NamespaceAt(r.state.store, Decimal(r.serverId)) == before.(owners := before.owners + {owner}))
      && (!c.mongoAttached ==> r.state.rooms[r.serverId].dbName.None? && r.state.store == c.store)
      && (forall name :: name != Decimal(r.serverId) ==> NamespaceAt(r.state.store, name) == NamespaceAt(c.store, name))
  {
    if !c.httpAttached then Created(c, -1)
    else
      var id := c.counter + 1;
      var name := Decimal(id);
      var store' :=
        if c.mongoAttached then
          var ns := NamespaceAt(c.store, name);
          c.store[name := ns.(owners := ns.owners + {owner})]
        else c.store;
      var server := ChatServer([], if c.mongoAttached then Some(name) else None);
      Created(c.(counter := id, rooms := c.rooms[id := server], store := store'), id)
  }

  /** `doesChatServerExist(serverId)`. */
  predicate DoesChatServerExist(c: Controller, id: int)
  {
    id in c.rooms
  }

  /** Successive creations, returning the ids in call order. */
  function CreateMany(c: Controller, owners: seq<Owner>): (r: (Controller, seq<int>))
    ensures |r.1| == |owners|
  {
    if |owners| == 0 then (c, [])
    else
      var (c', ids) := CreateMany(c, owners[..|owners| - 1]);
      var created := CreateChatServer(c', owners[|owners| - 1]);
      (created.state, ids + [created.serverId])
  }

  /** With an HTTP server attached, n creations hand out the next n ids in order and register exactly them. */
  lemma {:induction false} CreateManySequential(c: Controller, owners: seq<Owner>)
    requires c.httpAttached
    ensures var (c', ids) := CreateMany(c, owners);
      && c'.httpAttached
      && c'.counter == c.counter + |owners|
      && |ids| == |owners|
      && (forall i :: 0 <= i < |ids| ==> ids[i] == c.counter + 1 + i)
      && (forall id :: id in c'.rooms <==> id in c.rooms || c.counter < id <= c.counter + |owners|)
  {
    if |owners| > 0 {
      CreateManySequential(c, owners[..|owners| - 1]);
    }
  }

  /** From a fresh controller: ids 1, 2, 3, …, and a room exists for exactly those ids. */
  lemma SequentialIdsFromFresh(owners: seq<Owner>)
    ensures var (c, ids) := CreateMany(AttachHttpServer(Initial), owners);
      && (forall i :: 0 <= i < |ids| ==> ids[i] == i + 1)
      && (forall id :: DoesChatServerExist(c, id) <==> 1 <= id <= |owners|)
  {
    CreateManySequential(AttachHttpServer(Initial), owners);
  }

  /**
   * After any run of creations, a server exists exactly when it existed
   * before or its id was handed out; without an HTTP server every call
   * returns `-1` and nothing comes to exist.
   */
  lemma {:induction false} CreatedServersExist(c: Controller, owners: seq<Owner>)
    ensures var (c', ids) := CreateMany(c, owners);
      && (forall k :: DoesChatServerExist(c', k) <==> DoesChatServerExist(c, k) || (c.httpAttached && k in ids))
      && (!c.httpAttached ==> forall i :: 0 <= i < |ids| ==> ids[i] == -1)
      && c'.httpAttached == c.httpAttached
  {
    if |owners| > 0 {
      CreatedServersExist(c, owners[..|owners| - 1]);
    }
  }

  /** The `upgrade` listener: the room id is `parseInt` of the second-to-last path segment. */
  function RouteUpgrade(c: Controller, pathname: string): (r: Route)
    ensures r.Deliver? ==> DoesChatServerExist(c, r.id) && RoomIdAt(pathname, 1) == Int(r.id)
    ensures r.Destroy? <==> RoomIdAt(pathname, 1).NaN? || !DoesChatServerExist(c, RoomIdAt(pathname, 1).value)
  {
    RouteAt(pathname, 1, c.rooms.Keys)
  }

  /** A `.../<id>/<username>` upgrade reaches room `id` exactly when it is registered. */
  lemma RouteOfRoomPath(c: Controller, prefix: string, id: int, username: string)
    requires '/' !in username
    ensures RouteUpgrade(c, prefix + "/" + Decimal(id) + "/" + username)
         == (if DoesChatServerExist(c, id) then Deliver(id) else Destroy)
  {
    RoomIdOfRoomPath(prefix, id, username);
  }

  /** The session view of one room. */
  function ViewOf(c: Controller, server: ChatServer): RoomView
  {
    RoomView(server.clients, c.bound,
             match server.dbName
             case None => None
             case Some(name) => Some(NamespaceAt(c.store, name)))
  }

  /** A controller event's effect: the new state and the frames sent. */
  datatype Outcome = Outcome(state: Controller, sends: seq<Send>)

  /**
   * An event on room `id` changes nothing outside it: the flags, the counter,
   * the set of ids, every other room, the room's database name, and every
   * database but the room's own stay as they were.
   */
  ghost predicate OnlyRoomChanged(c: Controller, c': Controller, id: int)
    requires id in c.rooms
  {
    && c'.httpAttached == c.httpAttached
    && c'.mongoAttached == c.mongoAttached
    && c'.counter == c.counter
    && c'.rooms.Keys == c.rooms.Keys
    && c'.rooms[id].dbName == c.rooms[id].dbName
    && (forall other :: other in c.rooms && other != id ==> c'.rooms[other] == c.rooms[other])
    && (forall name :: Some(name) != c.rooms[id].dbName ==> NamespaceAt(c'.store, name) == NamespaceAt(c.store, name))
  }

  /** Write a room's step back into the controller: the room's view becomes exactly `view`, and nothing outside the room changes. */
  function Commit(c: Controller, id: int, view: RoomView): (r: Controller)
    requires id in c.rooms
    requires view.db.Some? == c.rooms[id].dbName.Some?
    ensures OnlyRoomChanged(c, r, id)
    ensures r.bound == view.bound && r.rooms[id].clients == view.clients
    ensures ViewOf(r, r.rooms[id]) == view
  {
    var server := c.rooms[id];
    var store' :=
      match (server.dbName, view.db)
      case (Some(name), Some(ns)) => c.store[name := ns]
      case _ => c.store;
    c.(rooms := c.rooms[id := server.(clients := view.clients)], bound := view.bound, store := store')
  }

  /**
   * A socket delivered to room `id`: it is added to exactly that room's
   * clients and the room's join handler runs.
   */
  function JoinRoom(c: Controller, id: int, pathname: string, ws: Socket): (r: Outcome)
    requires id in c.rooms
    ensures var step := Join(ViewOf(c, c.rooms[id]).(clients := AddClient(c.rooms[id].clients, ws)), ws, pathname);
      && OnlyRoomChanged(c, r.state, id)
      && ws in SocketsOf(r.state.rooms[id].clients)
      && ViewOf(r.state, r.state.rooms[id]) == step.view
      && r.sends == step.sends
  {
    var server := c.rooms[id];
    var view := ViewOf(c, server).(clients := AddClient(server.clients, ws));
    var step := Join(view, ws, pathname);
    Outcome(Commit(c, id, step.view), step.sends)
  }

  /**
   * An upgrade request for a new socket: routed, then either destroyed,
   * which changes nothing, or delivered to the room registered under the
   * parsed id.
   */
  function Upgrade(c: Controller, pathname: string, ws: Socket): (r: Outcome)
    ensures RouteUpgrade(c, pathname).Destroy? ==> r == Outcome(c, [])
    ensures RouteUpgrade(c, pathname).Deliver? ==>
      var id := RouteUpgrade(c, pathname).id;
      var step := Join(ViewOf(c, c.rooms[id]).(clients := AddClient(c.rooms[id].clients, ws)), ws, pathname);
      && r == JoinRoom(c, id, pathname, ws)
      && OnlyRoomChanged(c, r.state, id)
      && ws in SocketsOf(r.state.rooms[id].clients)
      && ViewOf(r.state, r.state.rooms[id]) == step.view
      && r.sends == step.sends
  {
    match RouteUpgrade(c, pathname)
    case Destroy => Outcome(c, [])
    case Deliver(id) => JoinRoom(c, id, pathname, ws)
  }

  /**
   * Whether socket `ws` of room `id` carries the room's `message` and `close`
   * listeners. The join installs them (lines 151-188) in the same step that
   * binds the socket (line 124), and the close listener unbinds it (line
   * 158); a join turned down for a taken name returns at line 119 without
   * installing them or binding the socket.
   */
  predicate Listening(c: Controller, id: int, ws: Socket)
    requires id in c.rooms
  {
    ws in c.bound && ws in SocketsOf(c.rooms[id].clients)
  }

  /**
   * A socket delivered to a room ends up with the room's listeners exactly
   * when its join is accepted: a taken name returns before they are
   * installed.
   */
  lemma JoinRoomListensIffAccepted(c: Controller, id: int, pathname: string, ws: Socket)
    requires id in c.rooms
    requires ws !in c.bound
    ensures Listening(JoinRoom(c, id, pathname, ws).state, id, ws)
        <==> !Taken(ViewOf(c, c.rooms[id]), LastSegment(pathname))
  {
  }

  /**
   * A frame arriving on socket `ws` of room `id`. Without the room's
   * listener nothing happens; otherwise the room's message handler runs.
   */
  function OnRoomMessage(c: Controller, id: int, ws: Socket, incoming: Incoming, now: int): (r: Outcome)
    requires id in c.rooms
    ensures !Listening(c, id, ws) ==> r == Outcome(c, [])
    ensures OnlyRoomChanged(c, r.state, id)
    ensures Listening(c, id, ws) ==>
      var step := OnMessage(ViewOf(c, c.rooms[id]), ws, incoming, now);
      ViewOf(r.state, r.state.rooms[id]) == step.view && r.sends == step.sends
  {
    var server := c.rooms[id];
    if !Listening(c, id, ws) then Outcome(c, [])
    else
      var step := OnMessage(ViewOf(c, server), ws, incoming, now);
      Outcome(Commit(c, id, step.view), step.sends)
  }

  /**
   * Socket `ws` of room `id` closing. The library always drops it from the
   * room's clients; only a socket with the room's listener also runs the
   * room's close handler. A socket without it (a turned-down join) sends
   * nothing and leaves the bindings and the databases alone.
   */
  function OnRoomClose(c: Controller, id: int, ws: Socket): (r: Outcome)
    requires id in c.rooms
    ensures OnlyRoomChanged(c, r.state, id)
    ensures SocketsOf(r.state.rooms[id].clients) == SocketsOf(c.rooms[id].clients) - {ws}
    ensures !Listening(c, id, ws) ==>
      && r.sends == []
      && r.state.bound == c.bound
      && r.state.store == c.store
      && forall t :: OpenCount(r.state.rooms[id].clients, t) == if t == ws then 0 else OpenCount(c.rooms[id].clients, t)
    ensures Listening(c, id, ws) ==>
      var step := OnClose(ViewOf(c, c.rooms[id]), ws);
      && r.state.bound == c.bound - {ws}
      && ViewOf(r.state, r.state.rooms[id]) == step.view
      && r.sends == step.sends
  {
    var server := c.rooms[id];
    if !Listening(c, id, ws) then
      Outcome(c.(rooms := c.rooms[id := server.(clients := RemoveClient(server.clients, ws))]), [])
    else
      var step := OnClose(ViewOf(c, server), ws);
      Outcome(Commit(c, id, step.view), step.sends)
  }

  /** The room invariant of `Session`, read through the controller. */
  ghost predicate RoomConsistent(c: Controller, id: int)
    requires id in c.rooms
  {
    Consistent(ViewOf(c, c.rooms[id]))
  }

  /** Delivering a fresh socket and running the join keeps the room invariant. */
  lemma JoinRoomKeepsConsistent(c: Controller, id: int, pathname: string, ws: Socket)
    requires id in c.rooms && RoomConsistent(c, id)
    requires ws !in c.bound
    ensures RoomConsistent(JoinRoom(c, id, pathname, ws).state, id)
  {
    var view := ViewOf(c, c.rooms[id]);
    AddClientKeepsConsistent(view, ws);
    JoinKeepsConsistent(view.(clients := AddClient(c.rooms[id].clients, ws)), ws, pathname);
  }

  lemma OnRoomMessageKeepsConsistent(c: Controller, id: int, ws: Socket, incoming: Incoming, now: int)
    requires id in c.rooms && RoomConsistent(c, id)
    ensures RoomConsistent(OnRoomMessage(c, id, ws, incoming, now).state, id)
  {
    if Listening(c, id, ws) {
      OnMessageKeepsConsistent(ViewOf(c, c.rooms[id]), ws, incoming, now);
    }
  }

  lemma OnRoomCloseKeepsConsistent(c: Controller, id: int, ws: Socket)
    requires id in c.rooms && RoomConsistent(c, id)
    ensures RoomConsistent(OnRoomClose(c, id, ws).state, id)
  {
    var view := ViewOf(c, c.rooms[id]);
    if Listening(c, id, ws) {
      OnCloseKeepsConsistent(view, ws);
    } else {
      RemoveClientKeepsConsistent(view, ws);
    }
  }

  /**
   * A join turned down for a taken name, followed by that socket's close:
   * only the joiner is ever sent anything, and the bindings and every
   * database end as they began.
   */
  lemma TurnedDownJoinIsSilent(c: Controller, id: int, pathname: string, ws: Socket)
    requires id in c.rooms
    requires ws !in c.bound
    requires Taken(ViewOf(c, c.rooms[id]), LastSegment(pathname))
    ensures var joined := JoinRoom(c, id, pathname, ws);
      var closed := OnRoomClose(joined.state, id, ws);
      && (forall k :: 0 <= k < |joined.sends| ==> joined.sends[k].to == ws)
      && closed.sends == []
      && closed.state.bound == c.bound
      && (forall name :: NamespaceAt(closed.state.store, name) == NamespaceAt(c.store, name))
      && SocketsOf(closed.state.rooms[id].clients) == SocketsOf(c.rooms[id].clients) - {ws}
  {
    var joined := JoinRoom(c, id, pathname, ws);
    assert !Listening(joined.state, id, ws);
  }

  /**
   * Every upgrade brings a new `WebSocket` (line 49), so a socket sits in
   * at most one room's clients.
   */
  ghost predicate SocketsInOneRoom(c: Controller)
  {
    forall a, b, s :: a in c.rooms && b in c.rooms && s in SocketsOf(c.rooms[a].clients) && s in SocketsOf(c.rooms[b].clients)
      ==> a == b
  }

  /** Each room reads no database or the one named by its own id (line 99). */
  ghost predicate RoomsReadOwnDatabase(c: Controller)
  {
    forall id :: id in c.rooms ==> c.rooms[id].dbName.None? || c.rooms[id].dbName == Some(Decimal(id))
  }

  /** The controller-wide invariant: every room consistent, sockets in one room, rooms on their own databases. */
  ghost predicate ControllerConsistent(c: Controller)
  {
    && (forall id :: id in c.rooms ==> RoomConsistent(c, id))
    && SocketsInOneRoom(c)
    && RoomsReadOwnDatabase(c)
  }

  /**
   * A join in room `id` writes the shared bindings, yet keeps any other room
   * on another database consistent as long as the joining socket is not one
   * of that room's clients.
   */
  lemma JoinRoomKeepsOtherRoomConsistent(c: Controller, id: int, other: int, pathname: string, ws: Socket)
    requires id in c.rooms && other in c.rooms && other != id
    requires c.rooms[other].dbName.None? || c.rooms[other].dbName != c.rooms[id].dbName
    requires RoomConsistent(c, other)
    requires ws !in c.bound && ws !in SocketsOf(c.rooms[other].clients)
    ensures RoomConsistent(JoinRoom(c, id, pathname, ws).state, other)
  {
    var r := JoinRoom(c, id, pathname, ws).state;
    var before := ViewOf(c, c.rooms[other]);
    RebindOutsideKeepsConsistent(before, r.bound);
    assert ViewOf(r, r.rooms[other]) == before.(bound := r.bound);
  }

  /** A message event in room `id` keeps every other room on another database consistent. */
  lemma OnRoomMessageKeepsOtherRoomConsistent(c: Controller, id: int, other: int, ws: Socket, incoming: Incoming, now: int)
    requires id in c.rooms && other in c.rooms && other != id
    requires c.rooms[other].dbName.None? || c.rooms[other].dbName != c.rooms[id].dbName
    requires RoomConsistent(c, other)
    ensures RoomConsistent(OnRoomMessage(c, id, ws, incoming, now).state, other)
  {
    var r := OnRoomMessage(c, id, ws, incoming, now).state;
    assert ViewOf(r, r.rooms[other]) == ViewOf(c, c.rooms[other]);
  }

  /**
   * A close event in room `id` keeps every other room on another database
   * consistent: it at most unbinds the closing socket, and the other room's
   * invariant never needs a socket bound.
   */
  lemma OnRoomCloseKeepsOtherRoomConsistent(c: Controller, id: int, other: int, ws: Socket)
    requires id in c.rooms && other in c.rooms && other != id
    requires c.rooms[other].dbName.None? || c.rooms[other].dbName != c.rooms[id].dbName
    requires RoomConsistent(c, other)
    ensures RoomConsistent(OnRoomClose(c, id, ws).state, other)
  {
    var r := OnRoomClose(c, id, ws).state;
    var before := ViewOf(c, c.rooms[other]);
    RebindOutsideKeepsConsistent(before, r.bound);
    assert ViewOf(r, r.rooms[other]) == before.(bound := r.bound);
  }

  /** Two rooms never read the same database, since `${id}` names one id only. */
  lemma DistinctRoomsDistinctDatabases(c: Controller, a: int, b: int)
    requires RoomsReadOwnDatabase(c)
    requires a in c.rooms && b in c.rooms && a != b
    ensures c.rooms[a].dbName.None? || c.rooms[a].dbName != c.rooms[b].dbName
  {
    DecimalInjective(a, b);
  }

  /**
   * A new socket (one in no room and bound to no name) joining any room
   * keeps the controller-wide invariant.
   */
  lemma JoinRoomKeepsControllerConsistent(c: Controller, id: int, pathname: string, ws: Socket)
    requires ControllerConsistent(c) && id in c.rooms
    requires ws !in c.bound
    requires forall k :: k in c.rooms ==> ws !in SocketsOf(c.rooms[k].clients)
    ensures ControllerConsistent(JoinRoom(c, id, pathname, ws).state)
  {
    var r := JoinRoom(c, id, pathname, ws).state;
    forall k | k in r.rooms
      ensures RoomConsistent(r, k)
    {
      if k == id {
        JoinRoomKeepsConsistent(c, id, pathname, ws);
      } else {
        DistinctRoomsDistinctDatabases(c, k, id);
        JoinRoomKeepsOtherRoomConsistent(c, id, k, pathname, ws);
      }
    }
    assert SocketsOf(r.rooms[id].clients) == SocketsOf(c.rooms[id].clients) + {ws};
  }

  /** An upgrade with a new socket keeps the controller-wide invariant, whether destroyed or delivered. */
  lemma UpgradeKeepsControllerConsistent(c: Controller, pathname: string, ws: Socket)
    requires ControllerConsistent(c)
    requires ws !in c.bound
    requires forall k :: k in c.rooms ==> ws !in SocketsOf(c.rooms[k].clients)
    ensures ControllerConsistent(Upgrade(c, pathname, ws).state)
  {
    match RouteUpgrade(c, pathname)
    case Destroy =>
    case Deliver(id) => JoinRoomKeepsControllerConsistent(c, id, pathname, ws);
  }

  /** A message event keeps the controller-wide invariant. */
  lemma OnRoomMessageKeepsControllerConsistent(c: Controller, id: int, ws: Socket, incoming: Incoming, now: int)
    requires ControllerConsistent(c) && id in c.rooms
    ensures ControllerConsistent(OnRoomMessage(c, id, ws, incoming, now).state)
  {
    var r := OnRoomMessage(c, id, ws, incoming, now).state;
    forall k | k in r.rooms
      ensures RoomConsistent(r, k)
    {
      if k == id {
        OnRoomMessageKeepsConsistent(c, id, ws, incoming, now);
      } else {
        DistinctRoomsDistinctDatabases(c, k, id);
        OnRoomMessageKeepsOtherRoomConsistent(c, id, k, ws, incoming, now);
      }
    }
    assert SocketsOf(r.rooms[id].clients) == SocketsOf(c.rooms[id].clients);
  }

  /** A close event keeps the controller-wide invariant. */
  lemma OnRoomCloseKeepsControllerConsistent(c: Controller, id: int, ws: Socket)
    requires ControllerConsistent(c) && id in c.rooms
    ensures ControllerConsistent(OnRoomClose(c, id, ws).state)
  {
    var r := OnRoomClose(c, id, ws).state;
    forall k | k in r.rooms
      ensures RoomConsistent(r, k)
    {
      if k == id {
        OnRoomCloseKeepsConsistent(c, id, ws);
      } else {
        DistinctRoomsDistinctDatabases(c, k, id);
        OnRoomCloseKeepsOtherRoomConsistent(c, id, k, ws);
      }
    }
  }

  /**
   * Creating a room keeps the controller-wide invariant when the database it
   * will read holds at most one active-user record per name; the new room
   * has no clients, and no other room reads that database.
   */
  lemma CreateChatServerKeepsControllerConsistent(c: Controller, owner: Owner)
    requires ControllerConsistent(c)
    requires UniqueNames(NamespaceAt(c.store, Decimal(c.counter + 1)).activeUsers)
    ensures ControllerConsistent(CreateChatServer(c, owner).state)
  {
    var r := CreateChatServer(c, owner).state;
    if c.httpAttached {
      var id := c.counter + 1;
      forall k | k in r.rooms && k != id
        ensures RoomConsistent(r, k)
      {
        DecimalInjective(k, id);
        assert ViewOf(r, r.rooms[k]) == ViewOf(c, c.rooms[k]);
      }
    }
  }

  /** MongoDB's own databases, which are never treated as rooms. */
  predicate IsReserved(name: string)
  {
    name == "admin" || name == "config" || name == "local"
  }

  /** The database names `setMongoClient` considers, in listing order. */
  function UserDatabases(listed: seq<string>): (r: seq<string>)
    ensures forall n :: n in r <==> n in listed && !IsReserved(n)
    ensures |r| <= |listed|
  {
    if |listed| == 0 then []
    else
      var rest := UserDatabases(listed[1..]);
      assert listed == [listed[0]] + listed[1..];
      if IsReserved(listed[0]) then rest else [listed[0]] + rest
  }

  /** What one restore callback works with: `parseInt` of the database's name, and the owner its metainfo read returns. */
  datatype Pending = Pending(id: NumberValue, owner: Owner)

  /** The callbacks for the given databases, in the order their metainfo reads resolve. */
  function Resolve(names: seq<string>, ownerOf: string -> Owner): (r: seq<Pending>)
    ensures |r| == |names|
    ensures forall i :: 0 <= i < |names| ==> r[i].id == ParseInt(names[i]) && r[i].owner == ownerOf(names[i])
  {
    seq(|names|, i requires 0 <= i < |names| => Pending(ParseInt(names[i]), ownerOf(names[i])))
  }

  /**
   * One database's restore callback: a name whose `parseInt` is NaN is
   * skipped; otherwise `_i` is set to id - 1 and `createChatServer` runs, so
   * the room lands under exactly `parseInt(name)`.
   */
  function RestoreNamespace(c: Controller, p: Pending): (r: Controller)
    ensures p.id.NaN? ==> r == c
    ensures r.bound == c.bound
    ensures p.id.Int? && c.httpAttached ==>
      var id := p.id.value;
      && r.counter == id
      && r.rooms.Keys == c.rooms.Keys + {id}
      && r.rooms[id].clients == []
      && (forall other :: other in c.rooms && other != id ==> r.rooms[other] == c.rooms[other])
      && r.httpAttached && r.mongoAttached == c.mongoAttached
    ensures p.id.Int? && c.httpAttached && c.mongoAttached ==>
      var id := p.id.value;
      var before := NamespaceAt(c.store, Decimal(id));
      && r.rooms[id].dbName == Some(Decimal(id))
      && NamespaceAt(r.store, Decimal(id)) == before.(owners := before.owners + {p.owner})
      && (forall name :: name != Decimal(id) ==> NamespaceAt(r.store, name) == NamespaceAt(c.store, name))
    ensures p.id.Int? && c.httpAttached && !c.mongoAttached ==>
      r.rooms[p.id.value].dbName.None? && r.store == c.store
  {
    match p.id
    case NaN => c
    case Int(id) => CreateChatServer(c.(counter := id - 1), p.owner).state
  }

  /** The ids the restore callbacks register, one per name that parses. */
  function RestoredIds(ps: seq<Pending>): set<int>
  {
    if |ps| == 0 then {}
    else
      match ps[0].id
      case NaN => RestoredIds(ps[1..])
      case Int(id) => {id} + RestoredIds(ps[1..])
  }

  /** An id is restored exactly when some callback's name parses to it. */
  lemma {:induction false} RestoredIdsMembers(ps: seq<Pending>, id: int)
    ensures id in RestoredIds(ps) <==> exists i :: 0 <= i < |ps| && ps[i].id == Int(id)
    decreases ps
  {
    if |ps| > 0 {
      RestoredIdsMembers(ps[1..], id);
      if ps[0].id == Int(id) {
      } else if exists i :: 0 <= i < |ps[1..]| && ps[1..][i].id == Int(id) {
        var i :| 0 <= i < |ps[1..]| && ps[1..][i].id == Int(id);
        assert ps[i + 1] == ps[1..][i];
      } else {
        forall i | 0 <= i < |ps|
          ensures ps[i].id != Int(id)
        {
          if i > 0 {
            assert ps[i] == ps[1..][i - 1];
          }
        }
      }
    }
  }

  /** Which ids get restored does not depend on the order the callbacks resolve in. */
  lemma RestoredIdsOfPermutation(a: seq<Pending>, b: seq<Pending>)
    requires multiset(a) == multiset(b)
    ensures RestoredIds(a) == RestoredIds(b)
  {
    forall id | id in RestoredIds(a) ensures id in RestoredIds(b)
    {
      RestoredIdsOrdered(a, b, id);
    }
    forall id | id in RestoredIds(b) ensures id in RestoredIds(a)
    {
      RestoredIdsOrdered(b, a, id);
    }
  }

  lemma RestoredIdsOrdered(a: seq<Pending>, b: seq<Pending>, id: int)
    requires multiset(a) == multiset(b)
    requires id in RestoredIds(a)
    ensures id in RestoredIds(b)
  {
    RestoredIdsMembers(a, id);
    var i :| 0 <= i < |a| && a[i].id == Int(id);
    assert a[i] in multiset(b);
    var j :| 0 <= j < |b| && b[j] == a[i];
    RestoredIdsMembers(b, id);
  }

  /** Restoring a listing registers exactly the ids that some non-reserved listed name parses to. */
  lemma RestoredIdsOfListing(listed: seq<string>, ownerOf: string -> Owner, id: int)
    ensures id in RestoredIds(Resolve(UserDatabases(listed), ownerOf))
        <==> exists n :: n in listed && !IsReserved(n) && ParseInt(n) == Int(id)
  {
    var names := UserDatabases(listed);
    var ps := Resolve(names, ownerOf);
    RestoredIdsMembers(ps, id);
    if id in RestoredIds(ps) {
      var i :| 0 <= i < |ps| && ps[i].id == Int(id);
      ListedName(listed, ownerOf, i);
    } else {
      forall n | n in listed && !IsReserved(n)
        ensures ParseInt(n) != Int(id)
      {
        var i := ListedIndex(listed, n);
        assert ps[i].id == ParseInt(n);
      }
    }
  }

  lemma ListedName(listed: seq<string>, ownerOf: string -> Owner, i: int)
    requires 0 <= i < |UserDatabases(listed)|
    ensures var n := UserDatabases(listed)[i];
      n in listed && !IsReserved(n) && Resolve(UserDatabases(listed), ownerOf)[i].id == ParseInt(n)
  {
    var names := UserDatabases(listed);
    assert names[i] in names;
  }

  lemma ListedIndex(listed: seq<string>, n: string) returns (i: int)
    requires n in listed && !IsReserved(n)
    ensures 0 <= i < |UserDatabases(listed)| && UserDatabases(listed)[i] == n
  {
    var names := UserDatabases(listed);
    assert n in names;
    i :| 0 <= i < |names| && names[i] == n;
  }

  /** `_i` after callbacks `ps` run in order from `start`: each callback whose name parses sets it to its own id. */
  function LastRestoredId(ps: seq<Pending>, start: int): int
    decreases ps
  {
    if |ps| == 0 then start
    else LastRestoredId(ps[1..], if ps[0].id.Int? then ps[0].id.value else start)
  }

  /**
   * That counter is the id of the last callback whose name parses, or
   * `start` when no name parses.
   */
  lemma {:induction false} LastRestoredIdIsLast(ps: seq<Pending>, start: int)
    ensures (forall i :: 0 <= i < |ps| ==> ps[i].id.NaN?) ==> LastRestoredId(ps, start) == start
    ensures forall i :: 0 <= i < |ps| && ps[i].id.Int? && (forall j :: i < j < |ps| ==> ps[j].id.NaN?) ==>
      LastRestoredId(ps, start) == ps[i].id.value
    decreases ps
  {
    if |ps| > 0 {
      var tail := ps[1..];
      var next := if ps[0].id.Int? then ps[0].id.value else start;
      LastRestoredIdIsLast(tail, next);
      forall i | 0 <= i < |ps| && ps[i].id.Int? && (forall j :: i < j < |ps| ==> ps[j].id.NaN?)
        ensures LastRestoredId(ps, start) == ps[i].id.value
      {
        if i == 0 {
          assert forall j :: 0 <= j < |tail| ==> tail[j] == ps[j + 1];
        } else {
          assert tail[i - 1] == ps[i];
          assert forall j :: i - 1 < j < |tail| ==> tail[j] == ps[j + 1];
        }
      }
      if forall i :: 0 <= i < |ps| ==> ps[i].id.NaN? {
        assert ps[0].id.NaN?;
        assert forall j :: 0 <= j < |tail| ==> tail[j] == ps[j + 1];
      }
    }
  }

  /**
   * Every database keeps its active users and messages and at most gains
   * owner records: the only write a restore makes is the owner upsert.
   */
  ghost predicate OnlyOwnersGrow(before: map<string, Namespace>, after: map<string, Namespace>)
  {
    forall name ::
      && NamespaceAt(after, name).activeUsers == NamespaceAt(before, name).activeUsers
      && NamespaceAt(after, name).messages == NamespaceAt(before, name).messages
      && NamespaceAt(before, name).owners <= NamespaceAt(after, name).owners
  }

  lemma OnlyOwnersGrowTransitive(a: map<string, Namespace>, b: map<string, Namespace>, c: map<string, Namespace>)
    requires OnlyOwnersGrow(a, b) && OnlyOwnersGrow(b, c)
    ensures OnlyOwnersGrow(a, c)
  {
  }

  /**
   * The store after a restore of `ps` that started from `c`: with a
   * MongoClient, each restored room reads database `${id}`, databases other
   * than those are untouched, and every database keeps its active users and
   * messages; without one, nothing is written and no room has a database.
   */
  ghost predicate RestoreWrites(c: Controller, r: Controller, ps: seq<Pending>)
  {
    && (c.mongoAttached ==>
          && (forall id :: id in RestoredIds(ps) && id in r.rooms ==> r.rooms[id].dbName == Some(Decimal(id)))
          && (forall name :: name !in RestoredNames(ps) ==> NamespaceAt(r.store, name) == NamespaceAt(c.store, name))
          && OnlyOwnersGrow(c.store, r.store))
    && (!c.mongoAttached ==>
          && r.store == c.store
          && (forall id :: id in RestoredIds(ps) && id in r.rooms ==> r.rooms[id].dbName.None?))
  }

  /** The database names the restored rooms read: `${id}` for each restored id. */
  function RestoredNames(ps: seq<Pending>): set<string>
  {
    set id | id in RestoredIds(ps) :: Decimal(id)
  }

  /** The first callback adds its own name, when it parses, to the names of the rest. */
  lemma RestoredNamesStep(ps: seq<Pending>)
    requires |ps| > 0
    ensures RestoredNames(ps) == (if ps[0].id.Int? then {Decimal(ps[0].id.value)} else {}) + RestoredNames(ps[1..])
  {
  }

  /** The callbacks run one after another, in the order their metainfo reads resolve. */
  function RestoreSteps(c: Controller, ps: seq<Pending>): (r: Controller)
    ensures c.httpAttached ==> r.httpAttached && r.mongoAttached == c.mongoAttached
    ensures c.httpAttached ==> r.rooms.Keys == c.rooms.Keys + RestoredIds(ps)
    ensures c.httpAttached && |ps| > 0 && ps[|ps| - 1].id.Int? ==> r.counter == ps[|ps| - 1].id.value
    ensures c.httpAttached ==> r.counter == LastRestoredId(ps, c.counter)
    ensures c.httpAttached ==> r.bound == c.bound
    ensures c.httpAttached ==> forall id :: id in c.rooms && id !in RestoredIds(ps) ==> r.rooms[id] == c.rooms[id]
    ensures c.httpAttached ==> forall id :: id in RestoredIds(ps) ==> r.rooms[id].clients == []
    decreases ps
  {
    if |ps| == 0 then c
    else
      var tail := ps[1..];
      assert tail == [] || ps[|ps| - 1] == tail[|tail| - 1];
      RestoreSteps(RestoreNamespace(c, ps[0]), tail)
  }

  /**
   * What the callbacks write: each restored room reads database `${id}`
   * (line 99), and the only write is the owner upsert into those databases
   * (line 101), so every other database is untouched and no database loses
   * active users or messages. Without a MongoClient nothing is written.
   */
  lemma RestoreStepsStore(c: Controller, ps: seq<Pending>)
    requires c.httpAttached
    ensures RestoreWrites(c, RestoreSteps(c, ps), ps)
  {
    RestoredRoomsReadOwnDatabase(c, ps);
    RestoreTouchesOnlyRestoredNames(c, ps);
    if c.mongoAttached {
      RestoreOnlyAddsOwners(c, ps);
    }
  }

  lemma {:induction false} RestoredRoomsReadOwnDatabase(c: Controller, ps: seq<Pending>)
    requires c.httpAttached
    ensures c.mongoAttached ==> forall id :: id in RestoredIds(ps) ==> RestoreSteps(c, ps).rooms[id].dbName == Some(Decimal(id))
    ensures !c.mongoAttached ==> forall id :: id in RestoredIds(ps) ==> RestoreSteps(c, ps).rooms[id].dbName.None?
    decreases ps
  {
    if |ps| > 0 {
      RestoredRoomsReadOwnDatabase(RestoreNamespace(c, ps[0]), ps[1..]);
    }
  }

  lemma {:induction false} RestoreTouchesOnlyRestoredNames(c: Controller, ps: seq<Pending>)
    requires c.httpAttached
    ensures c.mongoAttached ==>
      forall name :: name !in RestoredNames(ps) ==> NamespaceAt(RestoreSteps(c, ps).store, name) == NamespaceAt(c.store, name)
    ensures !c.mongoAttached ==> RestoreSteps(c, ps).store == c.store
    decreases ps
  {
    if |ps| > 0 {
      RestoreTouchesOnlyRestoredNames(RestoreNamespace(c, ps[0]), ps[1..]);
      RestoredNamesStep(ps);
    }
  }

  lemma {:induction false} RestoreOnlyAddsOwners(c: Controller, ps: seq<Pending>)
    requires c.httpAttached && c.mongoAttached
    ensures OnlyOwnersGrow(c.store, RestoreSteps(c, ps).store)
    decreases ps
  {
    if |ps| > 0 {
      var next := RestoreNamespace(c, ps[0]);
      RestoreOnlyAddsOwners(next, ps[1..]);
      assert OnlyOwnersGrow(c.store, next.store);
      OnlyOwnersGrowTransitive(c.store, next.store, RestoreSteps(c, ps).store);
    } else {
      assert OnlyOwnersGrow(c.store, c.store);
    }
  }

  /** The largest restored id, or 0 (`maxServerId`'s starting value). */
  function MaxRestoredId(ps: seq<Pending>): (m: int)
    ensures m >= 0
    ensures forall id :: id in RestoredIds(ps) ==> id <= m
  {
    if |ps| == 0 then 0
    else
      var rest := MaxRestoredId(ps[1..]);
      match ps[0].id
      case NaN => rest
      case Int(id) => if id > rest then id else rest
  }

  /**
   * The restore as written: line 88 runs before any callback gets past its
   * first `await`, so it sets `_i` to `maxServerId` while that is still 0;
   * each callback then sets `_i` to its own id, and the last to resolve wins.
   */
  function RestoreAsWritten(c: Controller, ps: seq<Pending>): (r: Controller)
    ensures c.httpAttached ==> r.httpAttached
    ensures c.httpAttached ==> r.rooms.Keys == c.rooms.Keys + RestoredIds(ps)
    ensures c.httpAttached && |ps| > 0 && ps[|ps| - 1].id.Int? ==> r.counter == ps[|ps| - 1].id.value
    ensures c.httpAttached ==> r.counter == LastRestoredId(ps, 0)
    ensures c.httpAttached ==> r.bound == c.bound
    ensures c.httpAttached ==> forall id :: id in c.rooms && id !in RestoredIds(ps) ==> r.rooms[id] == c.rooms[id]
    ensures c.httpAttached ==> forall id :: id in RestoredIds(ps) ==> r.rooms[id].clients == []
    ensures c.httpAttached ==> RestoreWrites(c, r, ps)
  {
    var r := RestoreSteps(c.(counter := 0), ps);
    if c.httpAttached then RestoreStepsStore(c.(counter := 0), ps); r else r
  }

  /**
   * The restore as intended: `_i = maxServerId` once every callback has
   * finished, so the counter is at least every restored id.
   */
  function RestoreAll(c: Controller, ps: seq<Pending>): (r: Controller)
    ensures c.httpAttached ==> r.httpAttached && r.mongoAttached == c.mongoAttached
    ensures c.httpAttached ==> r.rooms.Keys == c.rooms.Keys + RestoredIds(ps)
    ensures forall id :: id in RestoredIds(ps) ==> id <= r.counter
    ensures c.httpAttached ==> r.bound == c.bound
    ensures c.httpAttached ==> forall id :: id in c.rooms && id !in RestoredIds(ps) ==> r.rooms[id] == c.rooms[id]
    ensures c.httpAttached ==> forall id :: id in RestoredIds(ps) ==> r.rooms[id].clients == []
    ensures c.httpAttached ==> RestoreWrites(c, r, ps)
  {
    var r := RestoreSteps(c, ps).(counter := MaxRestoredId(ps));
    if c.httpAttached then RestoreStepsStore(c, ps); r else r
  }

  /** After the intended restore, the next room gets an id above every restored one, so none is overwritten. */
  lemma NextCreateAfterRestoreIsFresh(c: Controller, ps: seq<Pending>, owner: Owner)
    requires c.httpAttached
    ensures var restored := RestoreAll(c, ps);
      var created := CreateChatServer(restored, owner);
      && created.serverId !in RestoredIds(ps)
      && forall id :: id in RestoredIds(ps) ==> id < created.serverId
  {
  }

  lemma ParseTenAndSeven()
    ensures ParseInt("10") == Int(10) && ParseInt("7") == Int(7)
  {
    assert NatToDecimal(10) == NatToDecimal(1) + [DigitChar(0)];
    assert Decimal(10) == "10";
    assert Decimal(7) == "7";
    DecimalRoundTrip(10);
    DecimalRoundTrip(7);
  }

  /**
   * Line 88 does not do what its comment says: when the read for a larger id
   * resolves before the read for a smaller one, `_i` ends at the smaller id,
   * and later creations run into the larger id and replace that restored room.
   */
  lemma RestoreAsWrittenReusesId(a: int, b: int, ownerA: Owner, ownerB: Owner, owners: seq<Owner>)
    requires b < a
    requires |owners| == a - b
    ensures var c := RestoreAsWritten(AttachHttpServer(Initial), [Pending(Int(a), ownerA), Pending(Int(b), ownerB)]);
      && c.counter == b
      && a in c.rooms
      && CreateMany(c, owners).1[|owners| - 1] == a
  {
    var ps := [Pending(Int(a), ownerA), Pending(Int(b), ownerB)];
    RestoreTwoAsWritten(ps);
    var c := RestoreAsWritten(AttachHttpServer(Initial), ps);
    CreateManyLastId(c, owners, a);
  }

  lemma RestoreTwoAsWritten(ps: seq<Pending>)
    requires |ps| == 2 && ps[0].id.Int? && ps[1].id.Int?
    ensures var c := RestoreAsWritten(AttachHttpServer(Initial), ps);
      c.counter == ps[1].id.value && ps[0].id.value in c.rooms && c.httpAttached
  {
    RestoredIdsMembers(ps, ps[0].id.value);
  }

  lemma CreateManyLastId(c: Controller, owners: seq<Owner>, id: int)
    requires c.httpAttached && |owners| > 0
    requires |owners| == id - c.counter
    ensures CreateMany(c, owners).1[|owners| - 1] == id
  {
    CreateManySequential(c, owners);
  }

  /** The concrete case: databases "10" then "7"; the third room created afterwards gets id 10. */
  lemma RestoreTenThenSeven(ownerOf: string -> Owner, owner: Owner)
    ensures var c := RestoreAsWritten(AttachHttpServer(Initial), Resolve(["10", "7"], ownerOf));
      && c.counter == 7
      && 10 in c.rooms
      && CreateMany(c, [owner, owner, owner]).1[2] == 10
  {
    ParseTenAndSeven();
    var ps := Resolve(["10", "7"], ownerOf);
    assert ps[0].id == Int(10) && ps[1].id == Int(7);
    RestoreTwoAsWritten(ps);
    var c := RestoreAsWritten(AttachHttpServer(Initial), ps);
    CreateManyLastId(c, [owner, owner, owner], 10);
  }

  /**
   * Through `setMongoClient` itself: rooms `x` and `y` persisted as databases
   * `${x}` and `${y}`, whose reads resolve in listing order, both come back
   * and leave `_i` at `y`, even when `x` is larger.
   */
  lemma SetMongoClientLastWins(c: Controller, x: int, y: int, ownerOf: string -> Owner)
    requires c.httpAttached
    ensures var listed := [Decimal(x), Decimal(y)];
      var r := SetMongoClient(c, listed, true, ownerOf, Resolve(UserDatabases(listed), ownerOf));
      r.counter == y && x in r.rooms && y in r.rooms
  {
    var a, b := Decimal(x), Decimal(y);
    DecimalNotReserved(x);
    DecimalNotReserved(y);
    DecimalRoundTrip(x);
    DecimalRoundTrip(y);
    TwoUserDatabases(a, b);
    var ps := Resolve([a, b], ownerOf);
    var r := SetMongoClient(c, [a, b], true, ownerOf, ps);
    assert r == RestoreAsWritten(c.(mongoAttached := true), ps);
    LastOfTwo(ps);
  }

  /** A room's database name is never one of MongoDB's own. */
  lemma DecimalNotReserved(id: int)
    ensures !IsReserved(Decimal(id))
  {
    var d := Decimal(id);
    assert d[0] == '-' || IsDecimalDigit(d[0]);
    assert "admin"[0] == 'a' && "config"[0] == 'c' && "local"[0] == 'l';
  }

  lemma TwoUserDatabases(a: string, b: string)
    requires !IsReserved(a) && !IsReserved(b)
    ensures UserDatabases([a, b]) == [a, b]
  {
    assert [a, b][1..] == [b];
    assert [b][1..] == [];
  }

  /** Two callbacks whose names parse: the second sets the counter, and both ids are restored. */
  lemma LastOfTwo(ps: seq<Pending>)
    requires |ps| == 2 && ps[0].id.Int? && ps[1].id.Int?
    ensures LastRestoredId(ps, 0) == ps[1].id.value
    ensures ps[0].id.value in RestoredIds(ps) && ps[1].id.value in RestoredIds(ps)
  {
    LastRestoredIdIsLast(ps, 0);
    RestoredIdsMembers(ps, ps[0].id.value);
    RestoredIdsMembers(ps, ps[1].id.value);
  }

  /** Lines 66-71: every listed database that is not reserved is dropped, and nothing else changes. */
  function DropListed(c: Controller, listed: seq<string>): (r: Controller)
    ensures r.rooms == c.rooms && r.counter == c.counter && r.bound == c.bound
    ensures r.httpAttached == c.httpAttached && r.mongoAttached == c.mongoAttached
    ensures forall n :: n in listed && !IsReserved(n) ==> n !in r.store
    ensures forall n :: n in c.store && (n !in listed || IsReserved(n)) ==> n in r.store && r.store[n] == c.store[n]
    ensures r.store.Keys <= c.store.Keys
  {
    var names := UserDatabases(listed);
    c.(store := c.store - (set n | n in names))
  }

  /**
   * `setMongoClient(client, restoreServers)`, given the database names the
   * server lists, the owner each metainfo read returns, and the order in
   * which the restore callbacks resolve (a reordering of the listed
   * databases that are not reserved). Without an HTTP server, or with
   * restore off, every non-reserved database is dropped and no room is
   * registered. Otherwise each name that parses becomes a room under that
   * id, and, as line 88 runs before any callback resolves, `_i` ends at the
   * id of the last callback to resolve whose name parses, or 0.
   */
  function SetMongoClient(c: Controller, listed: seq<string>, restoreServers: bool, ownerOf: string -> Owner,
                          order: seq<Pending>): (r: Controller)
    requires multiset(order) == multiset(Resolve(UserDatabases(listed), ownerOf))
    ensures r.mongoAttached
    ensures r.httpAttached == c.httpAttached
    ensures r.bound == c.bound
    ensures !c.httpAttached || !restoreServers ==>
      && r.rooms == c.rooms
      && r.counter == c.counter
      && (forall n :: n in listed && !IsReserved(n) ==> n !in r.store)
      && (forall n :: n in c.store && (n !in listed || IsReserved(n)) ==> n in r.store && r.store[n] == c.store[n])
      && r.store.Keys <= c.store.Keys
    ensures c.httpAttached && restoreServers ==>
      && r.rooms.Keys == c.rooms.Keys + RestoredIds(Resolve(UserDatabases(listed), ownerOf))
      && r.counter == LastRestoredId(order, 0)
      && RestoreWrites(c.(mongoAttached := true), r, Resolve(UserDatabases(listed), ownerOf))
      && (forall id :: id in c.rooms && id !in RestoredIds(Resolve(UserDatabases(listed), ownerOf)) ==> r.rooms[id] == c.rooms[id])
      && (forall id :: id in RestoredIds(Resolve(UserDatabases(listed), ownerOf)) ==> r.rooms[id].clients == [])
  {
    var attached := c.(mongoAttached := true);
    var names := UserDatabases(listed);
    if !c.httpAttached || !restoreServers then
      DropListed(attached, listed)
    else
      RestoredIdsOfPermutation(order, Resolve(names, ownerOf));
      assert RestoredNames(order) == RestoredNames(Resolve(names, ownerOf));
      RestoreAsWritten(attached, order)
  }

  /**
   * The restore with line 88 moved after every callback has finished: the
   * same rooms, and `_i` no smaller than any of their ids.
   */
  function SetMongoClientIntended(c: Controller, listed: seq<string>, restoreServers: bool, ownerOf: string -> Owner): (r: Controller)
    ensures r.mongoAttached
    ensures r.httpAttached == c.httpAttached
    ensures r.bound == c.bound
    ensures !c.httpAttached || !restoreServers ==> r == SetMongoClient(c, listed, restoreServers, ownerOf, Resolve(UserDatabases(listed), ownerOf))
    ensures c.httpAttached && restoreServers ==>
      && r.rooms.Keys == c.rooms.Keys + RestoredIds(Resolve(UserDatabases(listed), ownerOf))
      && (forall id :: id in RestoredIds(Resolve(UserDatabases(listed), ownerOf)) ==> id <= r.counter)
      && RestoreWrites(c.(mongoAttached := true), r, Resolve(UserDatabases(listed), ownerOf))
      && (forall id :: id in c.rooms && id !in RestoredIds(Resolve(UserDatabases(listed), ownerOf)) ==> r.rooms[id] == c.rooms[id])
      && (forall id :: id in RestoredIds(Resolve(UserDatabases(listed), ownerOf)) ==> r.rooms[id].clients == [])
  {
    var attached := c.(mongoAttached := true);
    var names := UserDatabases(listed);
    if !c.httpAttached || !restoreServers then
      DropListed(attached, listed)
    else
      RestoreAll(attached, Resolve(names, ownerOf))
  }

  /**
   * Line 55's "restore their state": after `setMongoClient` with restore on,
   * every restored room reads database `${id}`, with the messages and active
   * users that database held before.
   */
  lemma RestoredRoomServesItsDatabase(c: Controller, listed: seq<string>, ownerOf: string -> Owner, order: seq<Pending>)
    requires c.httpAttached
    requires multiset(order) == multiset(Resolve(UserDatabases(listed), ownerOf))
    ensures var r := SetMongoClient(c, listed, true, ownerOf, order);
      forall id :: id in RestoredIds(Resolve(UserDatabases(listed), ownerOf)) ==>
        && ViewOf(r, r.rooms[id]).db.Some?
        && ViewOf(r, r.rooms[id]).db.value.messages == NamespaceAt(c.store, Decimal(id)).messages
        && ViewOf(r, r.rooms[id]).db.value.activeUsers == NamespaceAt(c.store, Decimal(id)).activeUsers
  {
  }
}

=== FILE: factory.dfy ===
/**
 * ChatServerFactory, the simpler registry: sequential ids, an id-to-server
 * map, and `upgrade` routing that takes the room id from the LAST path
 * segment. Its servers only log connections, so a server is modelled by the
 * id `h` its connection handler captured.
 */
module ChatServerFactory {
  import opened JsNumber
  import opened Routing

  /** A WebSocketServer made by the factory, known by the `h` its handler logs. */
  datatype ChatServer = ChatServer(serverId: int)

  /** `_httpServer` as an attached flag, the counter `_i`, and `_pathNameToChatServer`. */
  datatype Factory = Factory(httpAttached: bool, counter: int, servers: map<int, ChatServer>)

  const Initial := Factory(false, 0, map[])

  /** `set httpServer`. */
  function AttachHttpServer(f: Factory): Factory
  {
    f.(httpAttached := true)
  }

  datatype Created = Created(state: Factory, serverId: int)

  /** Every server is stored under the id it was created with. */
  ghost predicate Labelled(f: Factory)
  {
    forall id :: id in f.servers ==> f.servers[id].serverId == id
  }

  /**
   * `createChatServer()`. Without an HTTP server: `-1` and no change.
   * Otherwise `h = _i + 1`, `_i` advances by one, and a server for `h` is
   * stored under `h`.
   */
  function CreateChatServer(f: Factory): (r: Created)
    ensures !f.httpAttached ==> r == Created(f, -1)
    ensures f.httpAttached ==>
      && r.serverId == f.counter + 1
      && r.state.counter == f.counter + 1
      && r.state.httpAttached
      && r.state.servers.Keys == f.servers.Keys + {r.serverId}
      && r.state.servers[r.serverId].serverId == r.serverId
      && forall id :: id in f.servers && id != r.serverId ==> r.state.servers[id] == f.servers[id]
    ensures Labelled(f) ==> Labelled(r.state)
  {
    if !f.httpAttached then Created(f, -1)
    else
      var h := f.counter + 1;
      Created(f.(counter := h, servers := f.servers[h := ChatServer(h)]), h)
  }

  function CreateMany(f: Factory, n: nat): (r: (Factory, seq<int>))
    ensures |r.1| == n
  {
    if n == 0 then (f, [])
    else
      var (f', ids) := CreateMany(f, n - 1);
      var created := CreateChatServer(f');
      (created.state, ids + [created.serverId])
  }

  /** From a fresh factory with an HTTP server: ids 1, 2, 3, …, each registered under itself. */
  lemma {:induction false} SequentialIds(n: nat)
    ensures var (f, ids) := CreateMany(AttachHttpServer(Initial), n);
      && f.httpAttached
      && f.counter == n
      && Labelled(f)
      && (forall i :: 0 <= i < n ==> ids[i] == i + 1)
      && (forall id :: id in f.servers <==> 1 <= id <= n)
  {
    if n > 0 {
      SequentialIds(n - 1);
    }
  }

  /** The outcome of an upgrade: the socket is destroyed, or handed to one server. */
  datatype Handoff = Destroyed | HandedTo(server: ChatServer)

  /** The `upgrade` listener: the id is `parseInt` of the last path segment. */
  function RouteUpgrade(f: Factory, pathname: string): (r: Handoff)
    ensures r.Destroyed? <==> RoomIdAt(pathname, 0).NaN? || RoomIdAt(pathname, 0).value !in f.servers
    ensures r.HandedTo? ==> r.server == f.servers[RoomIdAt(pathname, 0).value]
  {
    match RouteAt(pathname, 0, f.servers.Keys)
    case Destroy => Destroyed
    case Deliver(id) => HandedTo(f.servers[id])
  }

  /** A `.../<id>` upgrade reaches the server created for `id`, or is destroyed when there is none. */
  lemma RouteOfRoomPath(f: Factory, prefix: string, id: int)
    requires Labelled(f)
    ensures var r := RouteUpgrade(f, prefix + "/" + Decimal(id));
      && (r.HandedTo? <==> id in f.servers)
      && (r.HandedTo? ==> r.server.serverId == id)
  {
    RoomIdOfShortPath(prefix, id);
  }
}

=== FILE: js_number.dfy ===
/**
 * The two number/string conversions the chat server relies on:
 * `Number.parseInt(s)` (no radix argument) as defined in section 19.2.5 of
 * ECMA-262, and the template-literal rendering `${n}` of an integral number.
 */
module JsNumber {
  import opened Base

  /** A JavaScript number as `Number.parseInt` can produce it: NaN or an integral value. */
  datatype NumberValue = NaN | Int(value: int)

  /** ECMAScript WhiteSpace and LineTerminator code points (TAB, LF, VT, FF, CR, the Zs category, BOM, LS, PS). */
  predicate IsWhitespace(c: char)
  {
    var n := c as int;
    || (9 <= n <= 13)
    || n == 0x20 || n == 0xA0 || n == 0x1680
    || (0x2000 <= n <= 0x200A)
    || n == 0x2028 || n == 0x2029 || n == 0x202F || n == 0x205F
    || n == 0x3000 || n == 0xFEFF
  }

  predicate IsDecimalDigit(c: char)
  {
    '0' <= c <= '9'
  }

  predicate IsHexLetter(c: char)
  {
    ('a' <= c <= 'f') || ('A' <= c <= 'F')
  }

  /** A digit of radix 10, or of radix 16 (the only radix `parseInt` switches to on its own). */
  predicate IsRadixDigit(c: char, hex: bool)
  {
    IsDecimalDigit(c) || (hex && IsHexLetter(c))
  }

  function DigitValue(c: char): (d: nat)
    requires IsRadixDigit(c, true)
    ensures d < 16
    ensures IsDecimalDigit(c) ==> d < 10
  {
    if IsDecimalDigit(c) then c as int - '0' as int
    else if 'a' <= c <= 'f' then c as int - 'a' as int + 10
    else c as int - 'A' as int + 10
  }

  function Radix(hex: bool): nat
  {
    if hex then 16 else 10
  }

  /** TrimString(s, start): drop the leading white space. */
  function TrimStart(s: string): (r: string)
    ensures |r| <= |s| && r == s[|s| - |r|..]
    ensures |r| > 0 ==> !IsWhitespace(r[0])
    ensures forall i :: 0 <= i < |s| - |r| ==> IsWhitespace(s[i])
  {
    if |s| > 0 && IsWhitespace(s[0]) then TrimStart(s[1..]) else s
  }

  /** The longest prefix of `s` made of radix digits. */
  function DigitPrefix(s: string, hex: bool): (r: string)
    ensures r <= s
    ensures forall i :: 0 <= i < |r| ==> IsRadixDigit(r[i], hex)
    ensures |r| < |s| ==> !IsRadixDigit(s[|r|], hex)
  {
    if |s| > 0 && IsRadixDigit(s[0], hex) then [s[0]] + DigitPrefix(s[1..], hex) else []
  }

  /** The mathematical value of a digit string, most significant digit first. */
  function DigitsValue(z: string, hex: bool): nat
    requires forall i :: 0 <= i < |z| ==> IsRadixDigit(z[i], hex)
  {
    if |z| == 0 then 0
    else
      var last := z[|z| - 1];
      assert IsRadixDigit(last, hex);
      DigitsValue(z[..|z| - 1], hex) * Radix(hex) + DigitValue(last)
  }

  predicate HasHexPrefix(u: string)
  {
    |u| >= 2 && u[0] == '0' && (u[1] == 'x' || u[1] == 'X')
  }

  /**
   * The part of `parseInt` after the sign: switch to radix 16 after a
   * `0x`/`0X` prefix, then take the longest digit prefix; `None` (NaN) when
   * that prefix is empty.
   */
  function ParseUnsigned(u: string): (r: Option<nat>)
    ensures |u| > 0 && IsDecimalDigit(u[0]) && !HasHexPrefix(u) ==> r.Some?
    ensures (forall i :: 0 <= i < |u| ==> !IsDecimalDigit(u[i])) ==> r.None?
  {
    var hex := HasHexPrefix(u);
    var w := if hex then u[2..] else u;
    var z := DigitPrefix(w, hex);
    if |z| == 0 then None
    else
      assert z[0] == w[0];
      Some(DigitsValue(z, hex))
  }

  /**
   * `Number.parseInt(s)`: skip leading white space, read an optional sign,
   * then parse the rest without sign. `-0` is the integer 0 here.
   */
  function ParseInt(s: string): (r: NumberValue)
    ensures (forall i :: 0 <= i < |s| ==> !IsDecimalDigit(s[i])) ==> r.NaN?
    ensures |s| > 0 && IsDecimalDigit(s[0]) && !HasHexPrefix(s) ==> r.Int? && r.value >= 0
  {
    var t := TrimStart(s);
    var negative := |t| > 0 && t[0] == '-';
    var u := if |t| > 0 && (t[0] == '-' || t[0] == '+') then t[1..] else t;
    match ParseUnsigned(u)
    case None => NaN
    case Some(m) => Int(if negative then -(m as int) else m)
  }

  function DigitChar(d: nat): (c: char)
    requires d < 10
    ensures IsDecimalDigit(c) && DigitValue(c) == d
  {
    ('0' as int + d) as char
  }

  /** The decimal rendering of a natural number, without leading zeros. */
  function NatToDecimal(n: nat): (r: string)
    ensures |r| >= 1
    ensures forall i :: 0 <= i < |r| ==> IsDecimalDigit(r[i])
    ensures r[0] == '0' ==> n == 0
  {
    if n < 10 then [DigitChar(n)] else NatToDecimal(n / 10) + [DigitChar(n % 10)]
  }

  /** `${n}` for an integral number, as used to name a room's database. */
  function Decimal(n: int): (r: string)
  {
    if n < 0 then "-" + NatToDecimal(-n) else NatToDecimal(n)
  }

  lemma {:induction false} NatToDecimalValue(n: nat)
    ensures DigitsValue(NatToDecimal(n), false) == n
    decreases n
  {
    var r := NatToDecimal(n);
    if n >= 10 {
      NatToDecimalValue(n / 10);
      assert r[..|r| - 1] == NatToDecimal(n / 10);
    }
  }

  lemma {:induction false} DigitPrefixOfDigits(z: string, rest: string, hex: bool)
    requires forall i :: 0 <= i < |z| ==> IsRadixDigit(z[i], hex)
    requires |rest| == 0 || !IsRadixDigit(rest[0], hex)
    ensures DigitPrefix(z + rest, hex) == z
  {
    if |z| > 0 {
      assert (z + rest)[1..] == z[1..] + rest;
      DigitPrefixOfDigits(z[1..], rest, hex);
    }
  }

  lemma ParseUnsignedDecimal(m: nat, rest: string)
    requires |rest| == 0 || (!IsDecimalDigit(rest[0]) && rest[0] != 'x' && rest[0] != 'X')
    ensures ParseUnsigned(NatToDecimal(m) + rest) == Some(m)
  {
    var digits := NatToDecimal(m);
    var u := digits + rest;
    DigitPrefixOfDigits(digits, rest, false);
    NatToDecimalValue(m);
  }

  lemma TrimStartKeeps(s: string)
    requires |s| > 0 && !IsWhitespace(s[0])
    ensures TrimStart(s) == s
  {
  }

  /** `parseInt` of a string that starts with `-` and no white space negates the unsigned part. */
  lemma ParseIntNegative(s: string, m: nat)
    requires |s| > 0 && s[0] == '-'
    requires ParseUnsigned(s[1..]) == Some(m)
    ensures ParseInt(s) == Int(-(m as int))
  {
    TrimStartKeeps(s);
  }

  /** `parseInt` of a string that starts with a decimal digit is its unsigned part. */
  lemma ParseIntDigit(s: string, m: nat)
    requires |s| > 0 && IsDecimalDigit(s[0])
    requires ParseUnsigned(s) == Some(m)
    ensures ParseInt(s) == Int(m)
  {
    TrimStartKeeps(s);
  }

  /** The negative case: `-` and the digits of m, followed by `rest`, parse to -m. */
  lemma ParseNegativeDecimal(m: nat, rest: string, s: string)
    requires |rest| == 0 || (!IsDecimalDigit(rest[0]) && rest[0] != 'x' && rest[0] != 'X')
    requires s == "-" + NatToDecimal(m) + rest
    ensures ParseInt(s) == Int(-(m as int))
  {
    var digits := NatToDecimal(m);
    assert s[1..] == digits + rest;
    ParseUnsignedDecimal(m, rest);
    ParseIntNegative(s, m);
  }

  /** The non-negative case: the digits of n, followed by `rest`, parse to n. */
  lemma ParseNonNegativeDecimal(n: nat, rest: string, s: string)
    requires |rest| == 0 || (!IsDecimalDigit(rest[0]) && rest[0] != 'x' && rest[0] != 'X')
    requires s == NatToDecimal(n) + rest
    ensures ParseInt(s) == Int(n)
  {
    ParseUnsignedDecimal(n, rest);
    ParseIntDigit(s, n);
  }

  /**
   * `parseInt` reads back what `${n}` wrote, even when the rendering is
   * followed by text that starts with neither a digit nor a radix switch
   * (so `parseInt("7abc")` is 7).
   */
  lemma ParseDecimalPrefix(n: int, rest: string)
    requires |rest| == 0 || (!IsDecimalDigit(rest[0]) && rest[0] != 'x' && rest[0] != 'X')
    ensures ParseInt(Decimal(n) + rest) == Int(n)
  {
    if n < 0 {
      ParseNegativeDecimal(-n, rest, Decimal(n) + rest);
    } else {
      ParseNonNegativeDecimal(n, rest, Decimal(n) + rest);
    }
  }

  /** `${n}` followed by `parseInt` is the identity on integers. */
  lemma DecimalRoundTrip(n: int)
    ensures ParseInt(Decimal(n)) == Int(n)
  {
    ParseDecimalPrefix(n, "");
    assert Decimal(n) + "" == Decimal(n);
  }

  /** Distinct ids name distinct databases. */
  lemma DecimalInjective(a: int, b: int)
    ensures Decimal(a) == Decimal(b) <==> a == b
  {
    DecimalRoundTrip(a);
    DecimalRoundTrip(b);
  }
}

=== FILE: paths.dfy ===
/**
 * The path handling shared by routing and joining: `pathname.split("/")`,
 * `.reverse()`, and reading one element of the reversed list.
 */
module Paths {
  import opened Base

  /** The inverse of `Split`: the pieces glued back with `/` between them. */
  function Join(parts: seq<string>): string
    requires |parts| >= 1
  {
    if |parts| == 1 then parts[0] else parts[0] + "/" + Join(parts[1..])
  }

  /**
   * `s.split("/")`: the maximal `/`-free pieces between separators, so that
   * `""` gives `[""]` and `"/a/b"` gives `["", "a", "b"]`.
   */
  function Split(s: string): (r: seq<string>)
    ensures |r| >= 1
    ensures forall i :: 0 <= i < |r| ==> '/' !in r[i]
    ensures Join(r) == s
  {
    if |s| == 0 then [""]
    else if s[0] == '/' then
      assert s == "/" + s[1..];
      [""] + Split(s[1..])
    else
      var rest := Split(s[1..]);
      assert s == [s[0]] + s[1..];
      JoinExtendFirst(s[0], rest);
      [[s[0]] + rest[0]] + rest[1..]
  }

  /** A direct proof by cases; automatic induction only makes it slower. */
  lemma {:induction false} JoinExtendFirst(c: char, parts: seq<string>)
    requires |parts| >= 1
    ensures Join([[c] + parts[0]] + parts[1..]) == [c] + Join(parts)
  {
    var p := [[c] + parts[0]] + parts[1..];
    if |parts| == 1 {
      assert p == [[c] + parts[0]];
    } else {
      assert p[0] == [c] + parts[0] && p[1..] == parts[1..];
      calc {
        Join(p);
        p[0] + "/" + Join(p[1..]);
        ([c] + parts[0]) + "/" + Join(parts[1..]);
        [c] + (parts[0] + "/" + Join(parts[1..]));
      }
    }
  }

  lemma {:induction false} SplitWithoutSeparator(u: string)
    requires '/' !in u
    ensures Split(u) == [u]
  {
    if |u| > 0 {
      SplitWithoutSeparator(u[1..]);
      assert [u[0]] + u[1..] == u;
    }
  }

  /** Splitting distributes over a separator: the pieces of `a/b` are those of `a` then those of `b`. */
  lemma {:induction false} SplitConcat(a: string, b: string)
    ensures Split(a + "/" + b) == Split(a) + Split(b)
  {
    var s := a + "/" + b;
    if |a| == 0 {
      assert s == "/" + b;
      assert s[1..] == b;
    } else {
      assert s[1..] == a[1..] + "/" + b;
      SplitConcat(a[1..], b);
    }
  }

  /** Splitting undoes joining when no piece holds a separator. */
  lemma {:induction false} SplitJoin(parts: seq<string>)
    requires |parts| >= 1
    requires forall i :: 0 <= i < |parts| ==> '/' !in parts[i]
    ensures Split(Join(parts)) == parts
  {
    SplitWithoutSeparator(parts[0]);
    if |parts| > 1 {
      SplitJoin(parts[1..]);
      SplitConcat(parts[0], Join(parts[1..]));
      assert [parts[0]] + parts[1..] == parts;
    }
  }

  /** `Array.prototype.reverse`. */
  function Reverse<T>(s: seq<T>): (r: seq<T>)
    ensures |r| == |s|
    ensures forall i :: 0 <= i < |s| ==> r[i] == s[|s| - 1 - i]
  {
    if |s| == 0 then [] else Reverse(s[1..]) + [s[0]]
  }

  /**
   * `pathname.split("/").reverse()[k]`: the k-th segment counted from the
   * end, or `undefined` when the path has too few segments.
   */
  function SegmentFromEnd(pathname: string, k: nat): (r: Option<string>)
    ensures k == 0 ==> r.Some?
    ensures r.Some? ==> '/' !in r.value
    ensures r.Some? <==> k < |Split(pathname)|
    ensures r.Some? ==> r.value == Split(pathname)[|Split(pathname)| - 1 - k]
  {
    var reversed := Reverse(Split(pathname));
    if k < |reversed| then Some(reversed[k]) else None
  }

  /** Reading index 0 and 1 of the reversed list picks the last and the second-to-last segment. */
  lemma SegmentsOfRoomPath(prefix: string, room: string, username: string)
    requires '/' !in room && '/' !in username
    ensures SegmentFromEnd(prefix + "/" + room + "/" + username, 0) == Some(username)
    ensures SegmentFromEnd(prefix + "/" + room + "/" + username, 1) == Some(room)
  {
    var path := prefix + "/" + room + "/" + username;
    SplitConcat(prefix + "/" + room, username);
    SplitConcat(prefix, room);
    SplitWithoutSeparator(room);
    SplitWithoutSeparator(username);
    assert Split(path) == Split(prefix) + [room] + [username];
  }

  /** The last segment of `prefix/room` is `room`. */
  lemma LastSegmentOfPath(prefix: string, room: string)
    requires '/' !in room
    ensures SegmentFromEnd(prefix + "/" + room, 0) == Some(room)
  {
    SplitConcat(prefix, room);
    SplitWithoutSeparator(room);
  }
}

=== FILE: routing.dfy ===
/**
 * The `upgrade` routing shared by ChatServerController and
 * ChatServerFactory: read one segment of the pathname counted from the end,
 * `parseInt` it, and destroy the socket unless a room is registered there.
 */
module Routing {
  import opened Base
  import opened JsNumber
  import Paths

  datatype Route = Destroy | Deliver(id: int)

  /**
   * `Number.parseInt(pathname.split("/").reverse()[k])`. A missing element is
   * `undefined`, which `parseInt` reads as the text "undefined".
   */
  function RoomIdAt(pathname: string, k: nat): NumberValue
  {
    match Paths.SegmentFromEnd(pathname, k)
    case Some(segment) => ParseInt(segment)
    case None => ParseInt("undefined")
  }

  /**
   * The id read at reversed index `k` is `parseInt` of the `k`-th segment
   * from the end, and NaN when the path has no such segment.
   */
  lemma RoomIdAtSegment(pathname: string, k: nat)
    ensures k >= |Paths.Split(pathname)| ==> RoomIdAt(pathname, k).NaN?
    ensures k < |Paths.Split(pathname)| ==>
      RoomIdAt(pathname, k) == ParseInt(Paths.Split(pathname)[|Paths.Split(pathname)| - 1 - k])
  {
    RoomIdPastTheStart(pathname, k);
    RoomIdOfSegment(pathname, k);
  }

  /** The missing-segment half of `RoomIdAtSegment`, kept apart to keep each proof small. */
  lemma RoomIdPastTheStart(pathname: string, k: nat)
    ensures k >= |Paths.Split(pathname)| ==> RoomIdAt(pathname, k).NaN?
  {
    if Paths.SegmentFromEnd(pathname, k).None? {
      UndefinedIsNaN();
    }
  }

  /** The present-segment half of `RoomIdAtSegment`. */
  lemma RoomIdOfSegment(pathname: string, k: nat)
    ensures k < |Paths.Split(pathname)| ==>
      RoomIdAt(pathname, k) == ParseInt(Paths.Split(pathname)[|Paths.Split(pathname)| - 1 - k])
  {
  }

  /** `parseInt(undefined)` reads the text `undefined`, which holds no digit. */
  lemma UndefinedIsNaN()
    ensures ParseInt("undefined") == NaN
  {
    var u := "undefined";
    assert forall i :: 0 <= i < |u| ==> !IsDecimalDigit(u[i]);
  }

  /** Destroy on NaN or an unregistered id; otherwise deliver to the id read. */
  function RouteAt(pathname: string, k: nat, registered: set<int>): (r: Route)
    ensures r.Destroy? <==> RoomIdAt(pathname, k).NaN? || RoomIdAt(pathname, k).value !in registered
    ensures r.Deliver? ==> RoomIdAt(pathname, k) == Int(r.id) && r.id in registered
  {
    match RoomIdAt(pathname, k)
    case NaN => Destroy
    case Int(id) => if id in registered then Deliver(id) else Destroy
  }

  lemma DecimalHasNoSlash(id: int)
    ensures '/' !in Decimal(id)
  {
    var d := Decimal(id);
    forall i | 0 <= i < |d| ensures d[i] != '/'
    {
      if id < 0 && i > 0 {
        assert d[i] == NatToDecimal(-id)[i - 1];
      }
    }
  }

  /** In a `.../<id>/<username>` path the second-to-last segment yields the id. */
  lemma RoomIdOfRoomPath(prefix: string, id: int, username: string)
    requires '/' !in username
    ensures RoomIdAt(prefix + "/" + Decimal(id) + "/" + username, 1) == Int(id)
  {
    DecimalHasNoSlash(id);
    Paths.SegmentsOfRoomPath(prefix, Decimal(id), username);
    DecimalRoundTrip(id);
  }

  /** In a `.../<id>` path the last segment yields the id. */
  lemma RoomIdOfShortPath(prefix: string, id: int)
    ensures RoomIdAt(prefix + "/" + Decimal(id), 0) == Int(id)
  {
    DecimalHasNoSlash(id);
    Paths.LastSegmentOfPath(prefix, Decimal(id));
    DecimalRoundTrip(id);
  }
}

=== FILE: session.dfy ===
/**
 * The per-room session state machine of ChatServerController: the
 * `connection` handler (join), and the `message` and `close` handlers it
 * installs on a joined socket. Each handler is one atomic transition over
 * the room's clients, the controller's socket-to-username map and the room's
 * database, returning the frames it sends.
 */
module Session {
  import opened Base
  import opened Wire
  import opened Store
  import Paths

  /** One member of a room's `clients` set; `open` is `readyState === WebSocket.OPEN`. */
  datatype Client = Client(socket: Socket, open: bool)

  /**
   * What a room's handlers see: the room's clients in insertion order, the
   * controller-wide socket-to-username map, and the room's database
   * (`None` when no MongoClient was attached as the room was created, so
   * every `db?.` call is skipped).
   */
  datatype RoomView = RoomView(clients: seq<Client>, bound: map<Socket, string>, db: Option<Namespace>)

  /** A handler's effect: the new view and the frames sent, in order. */
  datatype Step = Step(view: RoomView, sends: seq<Send>)

  /** How many OPEN entries of `clients` belong to socket `s`. */
  function OpenCount(clients: seq<Client>, s: Socket): nat
  {
    if |clients| == 0 then 0
    else (if clients[0].socket == s && clients[0].open then 1 else 0) + OpenCount(clients[1..], s)
  }

  predicate IsOpen(clients: seq<Client>, s: Socket)
  {
    OpenCount(clients, s) > 0
  }

  /** How many frames of `sends` go to socket `s`. */
  function SendsTo(sends: seq<Send>, s: Socket): nat
  {
    if |sends| == 0 then 0
    else (if sends[0].to == s then 1 else 0) + SendsTo(sends[1..], s)
  }

  function SocketsOf(clients: seq<Client>): set<Socket>
  {
    set k | 0 <= k < |clients| :: clients[k].socket
  }

  lemma SocketsOfSingle(c: Client)
    ensures SocketsOf([c]) == {c.socket}
  {
    assert [c][0].socket == c.socket;
  }

  lemma SocketsOfConcat(a: seq<Client>, b: seq<Client>)
    ensures SocketsOf(a + b) == SocketsOf(a) + SocketsOf(b)
  {
    var ab := a + b;
    forall x | x in SocketsOf(ab) ensures x in SocketsOf(a) + SocketsOf(b)
    {
      var k :| 0 <= k < |ab| && ab[k].socket == x;
      if k < |a| {
        assert ab[k] == a[k];
      } else {
        assert ab[k] == b[k - |a|];
      }
    }
    forall x | x in SocketsOf(a) ensures x in SocketsOf(ab)
    {
      var k :| 0 <= k < |a| && a[k].socket == x;
      assert ab[k] == a[k];
    }
    forall x | x in SocketsOf(b) ensures x in SocketsOf(ab)
    {
      var k :| 0 <= k < |b| && b[k].socket == x;
      assert ab[k + |a|] == b[k];
    }
  }

  /** A set holds each socket once. */
  ghost predicate DistinctSockets(clients: seq<Client>)
  {
    forall i, j :: 0 <= i < j < |clients| ==> clients[i].socket != clients[j].socket
  }

  lemma {:induction false} OpenCountOfDistinct(clients: seq<Client>, s: Socket)
    requires DistinctSockets(clients)
    ensures OpenCount(clients, s) <= 1
    ensures s !in SocketsOf(clients) ==> OpenCount(clients, s) == 0
  {
    if |clients| > 0 {
      OpenCountOfDistinct(clients[1..], s);
      if clients[0].socket == s {
        assert s !in SocketsOf(clients[1..]);
      } else {
        assert s in SocketsOf(clients[1..]) ==> s in SocketsOf(clients);
      }
    }
  }

  /**
   * `clients.forEach(client => { if (client.readyState === OPEN) client.send(msgFor(client)) })`:
   * every OPEN client gets exactly the frame chosen for it, and nobody else gets anything.
   */
  function Fanout(clients: seq<Client>, msgFor: Socket -> Outbound): (r: seq<Send>)
    ensures forall k :: 0 <= k < |r| ==> r[k].msg == msgFor(r[k].to)
    ensures forall s :: SendsTo(r, s) == OpenCount(clients, s)
  {
    if |clients| == 0 then []
    else
      var rest := Fanout(clients[1..], msgFor);
      if clients[0].open then
        var r := [Send(clients[0].socket, msgFor(clients[0].socket))] + rest;
        assert r[1..] == rest;
        r
      else rest
  }

  /** `webSocket.close()`: the socket leaves the OPEN state; its entry stays in `clients` until the close event. */
  function CloseClient(clients: seq<Client>, s: Socket): (r: seq<Client>)
    ensures |r| == |clients|
    ensures forall k :: 0 <= k < |r| ==> r[k].socket == clients[k].socket
    ensures OpenCount(r, s) == 0
    ensures forall t :: t != s ==> OpenCount(r, t) == OpenCount(clients, t)
  {
    if |clients| == 0 then []
    else
      var head := if clients[0].socket == s then clients[0].(open := false) else clients[0];
      var r := [head] + CloseClient(clients[1..], s);
      assert r[1..] == CloseClient(clients[1..], s);
      r
  }

  /** The library's own `clients.delete(ws)`, which runs before the room's close handler. */
  function RemoveClient(clients: seq<Client>, s: Socket): (r: seq<Client>)
    ensures SocketsOf(r) == SocketsOf(clients) - {s}
    ensures DistinctSockets(clients) ==> DistinctSockets(r)
    ensures forall t :: OpenCount(r, t) == if t == s then 0 else OpenCount(clients, t)
  {
    if |clients| == 0 then []
    else
      var rest := RemoveClient(clients[1..], s);
      assert SocketsOf(clients) == {clients[0].socket} + SocketsOf(clients[1..]);
      if clients[0].socket == s then rest
      else
        var r := [clients[0]] + rest;
        assert r[1..] == rest;
        SocketsOfConcat([clients[0]], rest);
        SocketsOfSingle(clients[0]);
        r
  }

  /** `handleUpgrade` adding the new socket to `clients`, OPEN (a set: adding a present socket does nothing). */
  function AddClient(clients: seq<Client>, s: Socket): (r: seq<Client>)
    ensures SocketsOf(r) == SocketsOf(clients) + {s}
    ensures DistinctSockets(clients) ==> DistinctSockets(r)
    ensures s !in SocketsOf(clients) ==> IsOpen(r, s)
  {
    if s in SocketsOf(clients) then clients
    else
      var r := clients + [Client(s, true)];
      SocketsOfConcat(clients, [Client(s, true)]);
      SocketsOfSingle(Client(s, true));
      OpenCountAppend(clients, Client(s, true), s);
      r
  }

  lemma {:induction false} OpenCountAppend(clients: seq<Client>, c: Client, s: Socket)
    ensures OpenCount(clients + [c], s) == OpenCount(clients, s) + (if c.socket == s && c.open then 1 else 0)
  {
    if |clients| > 0 {
      assert (clients + [c])[1..] == clients[1..] + [c];
      OpenCountAppend(clients[1..], c, s);
    }
  }

  /** The joiner's username: `pathname.split("/").reverse()[0]`, the last path segment. */
  function LastSegment(pathname: string): (r: string)
    ensures '/' !in r
  {
    Paths.SegmentFromEnd(pathname, 0).value
  }

  /** The username bound to `ws`, or `undefined`. */
  function BoundName(v: RoomView, ws: Socket): Option<string>
  {
    if ws in v.bound then Some(v.bound[ws]) else None
  }

  /** `activeUsersCollection?.findOne({username})` found a record. */
  predicate Taken(v: RoomView, username: string)
  {
    v.db.Some? && username in v.db.value.activeUsers
  }

  /**
   * What the joiner is sent: its username, and, when the room has a
   * database, the full history in time order and the roster with it in.
   */
  ghost predicate IsAckFor(m: Outbound, username: string, db: Option<Namespace>)
  {
    && m.JoinAck?
    && m.username == username
    && (db.None? ==> m.chatHistory.None? && m.activeUsers.None?)
    && (db.Some? ==>
          && m.chatHistory.Some?
          && SortedByTime(m.chatHistory.value)
          && multiset(m.chatHistory.value) == multiset(db.value.messages)
          && m.activeUsers == Some(db.value.activeUsers)
          && username in db.value.activeUsers)
  }

  /**
   * The `connection` handler. A taken username gets `UsernameTaken` (only
   * while the socket is OPEN) and a close, and nothing else changes.
   * Otherwise one active-user record is added, the socket is bound, the
   * joiner gets the ack and every other OPEN client a join notice.
   */
  function Join(v: RoomView, ws: Socket, pathname: string): (r: Step)
    ensures Taken(v, LastSegment(pathname)) ==>
      && r.view.bound == v.bound
      && r.view.db == v.db
      && r.sends == (if IsOpen(v.clients, ws) then [Send(ws, UsernameTaken)] else [])
      && SocketsOf(r.view.clients) == SocketsOf(v.clients)
      && !IsOpen(r.view.clients, ws)
      && forall t :: t != ws ==> OpenCount(r.view.clients, t) == OpenCount(v.clients, t)
    ensures !Taken(v, LastSegment(pathname)) ==>
      var username := LastSegment(pathname);
      && r.view.clients == v.clients
      && r.view.bound == v.bound[ws := username]
      && r.view.db.Some? == v.db.Some?
      && (v.db.Some? ==>
            && r.view.db.value.owners == v.db.value.owners
            && r.view.db.value.messages == v.db.value.messages
            && r.view.db.value.activeUsers == v.db.value.activeUsers + multiset{username})
      && (forall t :: SendsTo(r.sends, t) == OpenCount(v.clients, t))
      && (forall k :: 0 <= k < |r.sends| && r.sends[k].to == ws ==> IsAckFor(r.sends[k].msg, username, r.view.db))
      && (forall k :: 0 <= k < |r.sends| && r.sends[k].to != ws ==> r.sends[k].msg == JoinNotice(username))
  {
    var username := LastSegment(pathname);
    if Taken(v, username) then
      var sends := if IsOpen(v.clients, ws) then [Send(ws, UsernameTaken)] else [];
      Step(v.(clients := CloseClient(v.clients, ws)), sends)
    else
      var db' := match v.db
        case None => None
        case Some(ns) => Some(ns.(activeUsers := ns.activeUsers + multiset{username}));
      var ack := JoinAck(username,
                         if db'.Some? then Some(History(db'.value)) else None,
                         if db'.Some? then Some(db'.value.activeUsers) else None);
      var notice := JoinNotice(username);
      Step(RoomView(v.clients, v.bound[ws := username], db'),
           Fanout(v.clients, s => if s == ws then ack else notice))
  }

  /**
   * The `message` handler. A frame that does not parse is dropped. A payload
   * whose `username` is not the socket's bound name gets `Impersonation` and a
   * close. Otherwise one record is appended to the log and the payload is
   * relayed to every OPEN client, the sender included.
   */
  function OnMessage(v: RoomView, ws: Socket, incoming: Incoming, now: int): (r: Step)
    ensures incoming.Unparseable? ==> r == Step(v, [])
    ensures incoming.Parsed? && !SameUsername(BoundName(v, ws), incoming.payload.username) ==>
      && r.view.bound == v.bound
      && r.view.db == v.db
      && r.sends == [Send(ws, Impersonation)]
      && SocketsOf(r.view.clients) == SocketsOf(v.clients)
      && !IsOpen(r.view.clients, ws)
      && forall t :: t != ws ==> OpenCount(r.view.clients, t) == OpenCount(v.clients, t)
    ensures incoming.Parsed? && SameUsername(BoundName(v, ws), incoming.payload.username) ==>
      && r.view.clients == v.clients
      && r.view.bound == v.bound
      && r.view.db.Some? == v.db.Some?
      && (v.db.Some? ==>
            var log, log' := v.db.value.messages, r.view.db.value.messages;
            && r.view.db.value.owners == v.db.value.owners
            && r.view.db.value.activeUsers == v.db.value.activeUsers
            && |log'| == |log| + 1
            && log'[..|log|] == log
            && log'[|log|].username == BoundName(v, ws)
            && log'[|log|].message == incoming.payload.message
            && log'[|log|].utcTimestamp == now)
      && (forall t :: SendsTo(r.sends, t) == OpenCount(v.clients, t))
      && (forall k :: 0 <= k < |r.sends| ==> r.sends[k].msg == Relay(incoming.payload))
  {
    match incoming
    case Unparseable => Step(v, [])
    case Parsed(p) =>
      var actual := BoundName(v, ws);
      if !SameUsername(actual, p.username) then
        Step(v.(clients := CloseClient(v.clients, ws)), [Send(ws, Impersonation)])
      else
        var record := MessageRecord(actual, p.message, now);
        var db' := match v.db
          case None => None
          case Some(ns) => Some(ns.(messages := ns.messages + [record]));
        Step(v.(db := db'), Fanout(v.clients, _ => Relay(p)))
  }

  /** The username a close handler reports and deletes: the bound one, or the placeholder. */
  function LeavingName(v: RoomView, ws: Socket): string
  {
    if ws in v.bound then v.bound[ws] else Placeholder
  }

  /**
   * The `close` handler, after the library has dropped the socket from
   * `clients`: one active-user record of the leaving name is deleted, the
   * socket is unbound, and every client still OPEN gets a leave notice.
   */
  function OnClose(v: RoomView, ws: Socket): (r: Step)
    ensures r.view.bound == v.bound - {ws}
    ensures SocketsOf(r.view.clients) == SocketsOf(v.clients) - {ws}
    ensures DistinctSockets(v.clients) ==> DistinctSockets(r.view.clients)
    ensures r.view.db.Some? == v.db.Some?
    ensures v.db.Some? ==>
      var users, users' := v.db.value.activeUsers, r.view.db.value.activeUsers;
      && r.view.db.value.owners == v.db.value.owners
      && r.view.db.value.messages == v.db.value.messages
      && users'[LeavingName(v, ws)] == (if users[LeavingName(v, ws)] > 0 then users[LeavingName(v, ws)] - 1 else 0)
      && forall u :: u != LeavingName(v, ws) ==> users'[u] == users[u]
    ensures forall t :: SendsTo(r.sends, t) == (if t == ws then 0 else OpenCount(v.clients, t))
    ensures forall k :: 0 <= k < |r.sends| ==> r.sends[k].msg == LeftNotice(LeavingName(v, ws))
  {
    var clients' := RemoveClient(v.clients, ws);
    var name := LeavingName(v, ws);
    var db' := match v.db
      case None => None
      case Some(ns) => Some(ns.(activeUsers := ns.activeUsers - multiset{name}));
    Step(RoomView(clients', v.bound - {ws}, db'), Fanout(clients', _ => LeftNotice(name)))
  }

  /**
   * The room invariant the handlers keep: each socket is in `clients` once,
   * each username has at most one active-user record, every bound member's
   * name has a record, and no two members share a bound name.
   */
  ghost predicate Consistent(v: RoomView)
  {
    && DistinctSockets(v.clients)
    && (v.db.Some? ==>
          && UniqueNames(v.db.value.activeUsers)
          && (forall s :: s in SocketsOf(v.clients) && s in v.bound ==> v.bound[s] in v.db.value.activeUsers)
          && (forall s, t :: s in SocketsOf(v.clients) && s in v.bound && t in SocketsOf(v.clients) && t in v.bound && s != t
                 ==> v.bound[s] != v.bound[t]))
  }

  /**
   * Bindings changed only outside the room, or removed, keep the invariant:
   * every member still bound keeps the name it had.
   */
  lemma RebindOutsideKeepsConsistent(v: RoomView, bound': map<Socket, string>)
    requires Consistent(v)
    requires forall s :: s in SocketsOf(v.clients) && s in bound' ==> s in v.bound && bound'[s] == v.bound[s]
    ensures Consistent(v.(bound := bound'))
  {
  }

  /** A new connection (a socket no one has bound yet) keeps the invariant. */
  lemma AddClientKeepsConsistent(v: RoomView, ws: Socket)
    requires Consistent(v)
    requires ws !in v.bound
    ensures Consistent(v.(clients := AddClient(v.clients, ws)))
  {
  }

  /** The library dropping a socket from `clients` keeps the invariant. */
  lemma RemoveClientKeepsConsistent(v: RoomView, ws: Socket)
    requires Consistent(v)
    ensures Consistent(v.(clients := RemoveClient(v.clients, ws)))
  {
  }

  /** Because check and insert happen in one step, a join never duplicates a username. */
  lemma JoinKeepsConsistent(v: RoomView, ws: Socket, pathname: string)
    requires Consistent(v)
    ensures Consistent(Join(v, ws, pathname).view)
  {
    var username := LastSegment(pathname);
    var r := Join(v, ws, pathname);
    if !Taken(v, username) && v.db.Some? {
      var users' := r.view.db.value.activeUsers;
      assert users'[username] == 1;
      assert forall u :: u != username ==> users'[u] == v.db.value.activeUsers[u];
      forall s | s in SocketsOf(v.clients) && s in v.bound && s != ws
        ensures v.bound[s] != username
      {
        assert v.bound[s] in v.db.value.activeUsers;
      }
    }
  }

  lemma OnMessageKeepsConsistent(v: RoomView, ws: Socket, incoming: Incoming, now: int)
    requires Consistent(v)
    ensures Consistent(OnMessage(v, ws, incoming, now).view)
  {
  }

  /** Closing a member's socket frees exactly its own record. */
  lemma OnCloseKeepsConsistent(v: RoomView, ws: Socket)
    requires Consistent(v)
    requires ws in SocketsOf(v.clients) && ws in v.bound
    ensures Consistent(OnClose(v, ws).view)
  {
    var r := OnClose(v, ws);
    if v.db.Some? {
      var name := v.bound[ws];
      forall s | s in SocketsOf(r.view.clients) && s in r.view.bound
        ensures r.view.bound[s] in r.view.db.value.activeUsers
      {
        assert v.bound[s] != name;
      }
    }
  }
}

=== FILE: store.dfy ===
/**
 * The persisted state of one room, as the room's MongoDB database holds it:
 * the metainfo collection (owner records), the active-user collection and
 * the message collection. Only what the chat server reads and writes is kept.
 */
module Store {
  import opened Base
  import opened Wire

  /** An owner record's username; `None` when restore found no metainfo record. */
  type Owner = Option<string>

  /**
   * One room's database. Active users form a multiset because `insertOne`
   * can add a duplicate and `deleteOne` removes a single occurrence.
   */
  datatype Namespace = Namespace(owners: set<Owner>, activeUsers: multiset<string>, messages: seq<MessageRecord>)

  /** A database MongoDB has not created yet reads as empty. */
  const Empty := Namespace({}, multiset{}, [])

  function NamespaceAt(store: map<string, Namespace>, name: string): Namespace
  {
    if name in store then store[name] else Empty
  }

  /** At most one active-user record per username. */
  ghost predicate UniqueNames(users: multiset<string>)
  {
    forall u :: users[u] <= 1
  }

  ghost predicate SortedByTime(s: seq<MessageRecord>)
  {
    forall i, j :: 0 <= i < j < |s| ==> s[i].utcTimestamp <= s[j].utcTimestamp
  }

  /** Place `m` before the first record that is not earlier than it. */
  function InsertByTime(m: MessageRecord, s: seq<MessageRecord>): (r: seq<MessageRecord>)
    requires SortedByTime(s)
    ensures SortedByTime(r)
    ensures multiset(r) == multiset(s) + multiset{m}
    ensures |r| == |s| + 1
    ensures r[0] == m || (|s| > 0 && r[0] == s[0])
  {
    if |s| == 0 || m.utcTimestamp <= s[0].utcTimestamp then [m] + s
    else
      var rest := InsertByTime(m, s[1..]);
      assert s == [s[0]] + s[1..];
      [s[0]] + rest
  }

  /**
   * The result of `find({}).sort({utc_timestamp: 1})`: the whole message log,
   * ascending by timestamp. Records with equal timestamps keep log order.
   */
  function SortByTime(s: seq<MessageRecord>): (r: seq<MessageRecord>)
    ensures SortedByTime(r)
    ensures multiset(r) == multiset(s)
  {
    if |s| == 0 then []
    else
      assert s == [s[0]] + s[1..];
      InsertByTime(s[0], SortByTime(s[1..]))
  }

  /** The chat history a joiner receives. */
  function History(ns: Namespace): (r: seq<MessageRecord>)
    ensures SortedByTime(r)
    ensures multiset(r) == multiset(ns.messages)
  {
    SortByTime(ns.messages)
  }

  /** A log that is already in time order is sent back unchanged. */
  lemma {:induction false} SortSortedIsIdentity(s: seq<MessageRecord>)
    requires SortedByTime(s)
    ensures SortByTime(s) == s
  {
    if |s| > 0 {
      SortSortedIsIdentity(s[1..]);
      assert SortByTime(s[1..]) == s[1..];
      assert |s| == 1 || s[0].utcTimestamp <= s[1].utcTimestamp;
      assert [s[0]] + s[1..] == s;
    }
  }
}

=== FILE: wire.dfy ===
/**
 * What travels over a room's WebSocket connections: the parsed inbound chat
 * payload and the outbound frames a room sends. JSON text itself is not
 * modelled; each frame is the value that `JSON.stringify` would render.
 */
module Wire {
  import opened Base

  /** The identity of one WebSocket connection. */
  type Socket = nat

  /** A property read off a parsed JSON value: missing, a string, or any other JSON value (kept as its text). */
  datatype Field = Absent | Str(text: string) | Other(json: string)

  /** A parsed inbound frame; the chat client sends `{username, message}`. */
  datatype Payload = Payload(username: Field, message: Field)

  /** The outcome of `JSON.parse` plus the property reads that follow it; `Unparseable` covers every throw. */
  datatype Incoming = Unparseable | Parsed(payload: Payload)

  /** One persisted chat message: `{username, message, utc_timestamp}`. */
  datatype MessageRecord = MessageRecord(username: Option<string>, message: Field, utcTimestamp: int)

  const UsernameTakenText := "Username is taken."
  const ImpersonationText := "Impersonation is against the rules. Closing connection."
  const JoinedStatus := "joined!"
  const LeftStatus := "left."
  /** The name a leave notice carries when the closing socket has no bound username. */
  const Placeholder := "someone"

  /** The frames a room sends. */
  datatype Outbound =
    | /** `{message: UsernameTakenText}` */
      UsernameTaken
    | /** `{status: JoinedStatus, username, chatHistory?, activeUsers?}`, for the joiner only */
      JoinAck(username: string, chatHistory: Option<seq<MessageRecord>>, activeUsers: Option<multiset<string>>)
    | /** `{status: JoinedStatus, username}`, for everyone else */
      JoinNotice(username: string)
    | /** `{status: LeftStatus, username}` */
      LeftNotice(username: string)
    | /** the plain-text `ImpersonationText` */
      Impersonation
    | /** the received payload, serialised again */
      Relay(payload: Payload)

  datatype Send = Send(to: Socket, msg: Outbound)

  /** JavaScript's `actual === claimed` for a bound username (or `undefined`) against a payload property. */
  predicate SameUsername(actual: Option<string>, claimed: Field)
  {
    match actual
    case None => claimed.Absent?
    case Some(u) => claimed == Str(u)
  }
}
